=== FILE: README.md ===
# geospatial-point-benchmark, modelled in Dafny

geospatial-point-benchmark is a JMH harness. It compares four Java spatial
libraries: GeoTools, Lucene, JSI and jeospatial. Each one looks up, for every
query point, the indexed point nearest to it:
- GeoTools and JSI search only within the query radius: GeoTools takes the
  features in a bounding box grown by it, and JSI passes it to the R-tree's
  `nearest`;
- Lucene's active benchmark (`nearest`) and jeospatial
  (`getNearestNeighbors(point, 1)`) ask for the single nearest point with no
  radius. Lucene's radius-bounded query sits in a method that is not run as
  a benchmark.
`AbstractBenchmark` does the shared work:
- It keeps reproducible point datasets under `out/`, named
  `benchmark-{index,query}-points-<N>.csv`. An existing file is loaded;
  otherwise random points are drawn in the UK box and written out.
- It keeps the per-query `(id, distance)` results and two per-pass counters.
- At teardown it writes the results to `out/results-<Class>-<N>-<radius>.csv`.

Each backend class indexes the index points with ids 1, 2, 3, ... in input
order. It then runs one query pass over the query points.

The model is written with pure functions over immutable values:

| file | module | models |
|---|---|---|
| `base.dfy` | `Base` | `Option`, `Result` and the exceptions the harness raises |
| `text.dfy` | `Text` | decimal text of integers and fixed-point numbers, `String.split`, line-by-line parsing |
| `filestore.dfy` | `FileStore` | the file system as a map from path to directory or file (a file is its lines); `createDirectory` and file writing |
| `dataset.dfy` | `Dataset` | parameters, dataset file names, `createRandomLatLon`, `getPoints`, `getIndexPoints`, `getQueryPoints` |
| `recorder.dfy` | `Recorder` | result entries and the result-writing part of `teardown` |
| `runs.dfy` | `Runs` | what the backends share: `++i` numbering, the JSI and jeospatial `setup`, the metres-to-degrees radius, a query pass as a fold of per-query probes, and how a pass is recorded |
| `geotools.dfy` | `Geotools` | `GeotoolsBenchmark`: `createSimpleFeature`, `setup`, `query` with its nearest-candidate scan |
| `lucene.dfy` | `Lucene` | `LuceneBenchmark`: `LuceneType.getIndexPath`, `setup` (reuse or rebuild), `benchmark` |
| `jsi.dfy` | `Jsi` | `JsiBenchmark`: `query` |
| `jeo.dfy` | `Jeo` | `JeoBenchmark`: `benchmark` |
| `suite.dfy` | `Suite` | the four classes' results files side by side |

How the model represents the Java program:
- **Numbers.**
  - Coordinates and distances are Java doubles. Here they are fixed-point
    integers with 10^6 units per degree or metre.
  - The text of a number is a decimal codec of the model's own, with six
    fractional digits. It has a proved round trip, and it stands in for
    `Double.toString` and `Double.parseDouble`.
  - Ids and counters are unbounded integers.
- **Randomness.** `ThreadLocalRandom` is a parameter `random: nat -> nat`:
  - draw `2i` gives the latitude of the i-th generated point;
  - draw `2i + 1` gives its longitude.
- **Outcome of `mkdirs`.** Whether `mkdirs` succeeds is a parameter.
- **Exceptions.** Every exception the harness throws itself, and every
  file-system or parser exception it lets escape, is an `Err` of a `Result`:
  - a dataset file with the wrong number of points is `WrongPointCount`
    (the `RuntimeException` of AbstractBenchmark.java:91-93);
  - a line that does not parse is `MalformedLine` (the parser's exception,
    which escapes at :85-86).

  The exceptions the code catches are modelled as the code handles them.
  Several exceptions the libraries can throw are not modelled, among them
  their coordinate range checks; "## Left out" lists them. An empty index is built without complaint, and GeoTools drops
  an invalid geometry without giving it an id, as the code does.
- **Backends.** Each library's search is a function parameter (an oracle):
  - GeoTools' bounding-box lookup, validity test and orthodromic distance;
  - Lucene's search function and its stored-field read;
  - JSI's `nearest` callbacks;
  - jeospatial's `getNearestNeighbors`.

  The model fixes what the harness does with their answers.

## Model

Source paths are relative to the repository root.

| member | source | states |
|---|---|---|
| Text.IntTextRoundTrip | src/main/java/uk/ac/shef/wit/geo/benchmark/AbstractBenchmark.java:135 | the decimal text written for an int parses back to the same int |
| Text.IntTextInjective | src/main/java/uk/ac/shef/wit/geo/benchmark/AbstractBenchmark.java:78 | two ints have the same decimal text exactly when they are equal |
| Text.IntTextPrefixFree | src/main/java/uk/ac/shef/wit/geo/benchmark/AbstractBenchmark.java:127-131 | an int's text followed by a non-digit separator can be split back uniquely, giving the int and the rest |
| Text.FixedTextRoundTrip | src/main/java/uk/ac/shef/wit/geo/benchmark/AbstractBenchmark.java:101 | the text written for a coordinate parses back to the same value |
| Text.JavaSplitPair | src/main/java/uk/ac/shef/wit/geo/benchmark/AbstractBenchmark.java:85 | `split` on a separator absent from both halves, the second half non-empty, gives back exactly the two halves |
| Text.ParseLines | src/main/java/uk/ac/shef/wit/geo/benchmark/AbstractBenchmark.java:82-87 | the read loop succeeds exactly when every line parses; it then yields one value per line, in order; otherwise it fails at the first line that does not parse |
| FileStore.CreateDirectory | src/main/java/uk/ac/shef/wit/geo/benchmark/AbstractBenchmark.java:56-66 | succeeds exactly when the path is a directory, or is absent and `mkdirs` succeeds; a non-directory gives a not-a-directory error and a failed `mkdirs` a creation error; only that path changes |
| FileStore.WriteFile | src/main/java/uk/ac/shef/wit/geo/benchmark/AbstractBenchmark.java:99-103 | succeeds exactly when the parent is a directory and the target is not; the target then holds exactly the given lines and nothing else changes |
| Dataset.DatasetFileNamesDistinct | src/main/java/uk/ac/shef/wit/geo/benchmark/AbstractBenchmark.java:78 | two (role, size) keys name the same dataset file exactly when they are equal |
| Dataset.DatasetPathsDistinct | src/main/java/uk/ac/shef/wit/geo/benchmark/AbstractBenchmark.java:78-79 | the same holds for the full paths under `out` |
| Dataset.PointLinesRoundTrip | src/main/java/uk/ac/shef/wit/geo/benchmark/AbstractBenchmark.java:99-103 | reading the `lat,lon` lines written for a point sequence gives back that sequence |
| Dataset.NextInRange | src/main/java/uk/ac/shef/wit/geo/benchmark/AbstractBenchmark.java:112-113 | a draw lies in [origin, bound) |
| Dataset.RandomLatLon | src/main/java/uk/ac/shef/wit/geo/benchmark/AbstractBenchmark.java:111-115 | a generated point lies in the latitude and longitude box |
| Dataset.GeneratePoints | src/main/java/uk/ac/shef/wit/geo/benchmark/AbstractBenchmark.java:96-98 | exactly max(n, 0) points, all inside the box |
| Dataset.GetPoints | src/main/java/uk/ac/shef/wit/geo/benchmark/AbstractBenchmark.java:76-109 | on success the output directory exists, the result has max(n, 0) points, and the dataset file reads back as exactly that result; nothing but the directory and that file changes; a failing output directory gives its error, and a directory at the dataset path gives a read error |
| Dataset.GetPointsLoads | src/main/java/uk/ac/shef/wit/geo/benchmark/AbstractBenchmark.java:81-94 | with the file present: success exactly when every line parses and the count is n; the result is the file's points and nothing is written; a bad line or a wrong count gives its error |
| Dataset.GetPointsGenerates | src/main/java/uk/ac/shef/wit/geo/benchmark/AbstractBenchmark.java:95-107 | with the file absent: success exactly when the directory is usable and the box is non-empty (when points are drawn); the points are in the box and the file holds one line per point, in order |
| Dataset.DefaultParamsGenerate | src/main/java/uk/ac/shef/wit/geo/benchmark/AbstractBenchmark.java:42-46 | with the default box (roughly the UK), generating a missing dataset cannot fail on an empty range, and every point lies in latitude [48, 58) and longitude [-5, 5) |
| Dataset.GetPointsReproducible | src/main/java/uk/ac/shef/wit/geo/benchmark/AbstractBenchmark.java:76-109 | for n >= 0, after one successful call a second call with any randomness returns the same points and leaves the file system unchanged |
| Dataset.NegativeSizeNotReproducible | src/main/java/uk/ac/shef/wit/geo/benchmark/AbstractBenchmark.java:91-98 | for n < 0 the first call yields no points, and every later call fails the count check |
| Dataset.QueryPointsKeepIndexDataset | src/main/java/uk/ac/shef/wit/geo/benchmark/AbstractBenchmark.java:68-74 | fetching the query points leaves the index dataset intact: fetching the index points again returns the same points |
| Recorder.Teardown | src/main/java/uk/ac/shef/wit/geo/benchmark/AbstractBenchmark.java:126-143 | succeeds exactly when `out` is a directory and the results path is not; the file then holds one `id<TAB>distance` line per entry, in order, and nothing else changes |
| Recorder.ResultLineRoundTrip | src/main/java/uk/ac/shef/wit/geo/benchmark/AbstractBenchmark.java:135-138 | a results line parses back to its entry |
| Recorder.ResultsRoundTrip | src/main/java/uk/ac/shef/wit/geo/benchmark/AbstractBenchmark.java:133-139 | reading a written results file gives back the entries, in order, including `(0, -1.0)` ones |
| Recorder.ResultsFileNamesDistinct | src/main/java/uk/ac/shef/wit/geo/benchmark/AbstractBenchmark.java:127-131 | for one class, two (index size, radius) pairs share a results file exactly when they are equal |
| Recorder.ResultsFileIsNotDataset | src/main/java/uk/ac/shef/wit/geo/benchmark/AbstractBenchmark.java:127-131 | a results file name is never a dataset file name |
| Recorder.TeardownKeepsDatasets | src/main/java/uk/ac/shef/wit/geo/benchmark/AbstractBenchmark.java:132-133 | writing results leaves every dataset file present, absent or unchanged as it was |
| Suite.ResultsFilesPerClass | src/main/java/uk/ac/shef/wit/geo/benchmark/AbstractBenchmark.java:127-129 | two different benchmark classes never write the same results file, whatever their parameters and whatever common suffix the runtime class name carries |
| Runs.NumberConsecutive | src/main/java/uk/ac/shef/wit/geo/benchmark/JeoBenchmark.java:43-47 | the pre-incremented counter gives the k-th item id i + k + 1, the item unchanged |
| Runs.SetupNumbered | src/main/java/uk/ac/shef/wit/geo/benchmark/JsiBenchmark.java:40-54 | the JSI (and, identically, jeospatial) setup succeeds exactly when the index points can be fetched; the k-th point enters the index with id k + 1 |
| Runs.QueryRadiusDegrees | src/main/java/uk/ac/shef/wit/geo/benchmark/JsiBenchmark.java:65 | the radius in degrees, taking 100 km per degree: exactly the metres divided by 100000, with the sign of the metres |
| Runs.Fold | src/main/java/uk/ac/shef/wit/geo/benchmark/JeoBenchmark.java:58-69 | a pass yields one entry per probe, in order; the found count is the number of probes that found something and is at most the number of queries; the candidate count is the sum of the per-probe counts |
| Runs.ProbeAll | src/main/java/uk/ac/shef/wit/geo/benchmark/GeotoolsBenchmark.java:121-149 | the loop succeeds exactly when every query's probe succeeds, giving one result per query in order; otherwise it fails with the first failing query's error |
| Runs.AverageCandidates | src/main/java/uk/ac/shef/wit/geo/benchmark/GeotoolsBenchmark.java:151 | zero when nothing was found; otherwise the floor of candidates per found query |
| Geotools.CreateSimpleFeature | src/main/java/uk/ac/shef/wit/geo/benchmark/GeotoolsBenchmark.java:160-167 | no feature exactly when the geometry is null or invalid; otherwise a feature with that geometry and no id |
| Geotools.IndexFeaturesNumbering | src/main/java/uk/ac/shef/wit/geo/benchmark/GeotoolsBenchmark.java:84-99 | the kept features are exactly the valid points' coordinates, in order, numbered consecutively; invalid points use up no id |
| Geotools.AllValidCoordinates | src/main/java/uk/ac/shef/wit/geo/benchmark/GeotoolsBenchmark.java:86-93 | when every point is valid, every point is kept, in order, as (lon, lat) |
| Geotools.Setup | src/main/java/uk/ac/shef/wit/geo/benchmark/GeotoolsBenchmark.java:82-99 | succeeds exactly when the index points can be fetched; the features are the valid points with ids 1, 2, 3, ...; with all points valid, the k-th feature is the k-th point with id k + 1 |
| Geotools.NearestFromFindsFirstMinimum | src/main/java/uk/ac/shef/wit/geo/benchmark/GeotoolsBenchmark.java:131-140 | the strict `>` scan keeps the first least distance of the prefix seen so far as its invariant |
| Geotools.NearestIsFirstMinimum | src/main/java/uk/ac/shef/wit/geo/benchmark/GeotoolsBenchmark.java:123-141 | there is a nearest feature exactly when there are candidates; a position is chosen exactly when it holds the least distance and no earlier one does (ties go to the first) |
| Geotools.QueryProbeSpec | src/main/java/uk/ac/shef/wit/geo/benchmark/GeotoolsBenchmark.java:122-148 | a query records `(0, -1.0)` without candidates and otherwise the first nearest candidate's id and distance; it counts as found exactly when there are candidates and contributes their number |
| Geotools.QueryPassSpec | src/main/java/uk/ac/shef/wit/geo/benchmark/GeotoolsBenchmark.java:113-153 | after `query`, `results` holds exactly one nearest-or-`(0, -1.0)` entry per query; `nearestCounts` gains the number of queries with candidates and `candidateCounts` the floored average set size over them |
| Geotools.QueryPassSucceeds | src/main/java/uk/ac/shef/wit/geo/benchmark/GeotoolsBenchmark.java:145 | when every indexed feature carries an id, unboxing the id never throws |
| Geotools.Query | src/main/java/uk/ac/shef/wit/geo/benchmark/GeotoolsBenchmark.java:113-153 | a failing fetch of the query points aborts `query`; with ids on every feature it succeeds; then `results` has max(numberOfQueryPoints, 0) entries and each count list gains one value |
| Lucene.GetIndexPath | src/main/java/uk/ac/shef/wit/geo/benchmark/LuceneBenchmark.java:59-69 | no path exactly for `ram`; otherwise `lucene-<suffix>` under the output directory |
| Lucene.IndexPathsDistinct | src/main/java/uk/ac/shef/wit/geo/benchmark/LuceneBenchmark.java:98 | on disk, two index sizes share an index directory exactly when they are equal |
| Lucene.IndexDocumentsNumbering | src/main/java/uk/ac/shef/wit/geo/benchmark/LuceneBenchmark.java:125-137 | the k-th document holds the k-th point, and its stored id reads back as k + 1 |
| Lucene.DocumentsReadBack | src/main/java/uk/ac/shef/wit/geo/benchmark/LuceneBenchmark.java:125-137 | the documents written hold the points in order, and the k-th one's stored id parses back to k + 1 |
| Lucene.CreateIndex | src/main/java/uk/ac/shef/wit/geo/benchmark/LuceneBenchmark.java:120-141 | succeeds exactly when the index points can be fetched; then it holds one document per point, in order, whose stored id reads back as its position + 1 |
| Lucene.Setup | src/main/java/uk/ac/shef/wit/geo/benchmark/LuceneBenchmark.java:94-141 | a failing output directory aborts; the index found is kept exactly when the type is on disk and its document count is non-zero and equals N; otherwise a new index is built |
| Lucene.SetupHoldsRequestedPoints | src/main/java/uk/ac/shef/wit/geo/benchmark/LuceneBenchmark.java:97-141 | whether kept or written anew, the index `setup` ends with holds exactly max(numberOfIndexPoints, 0) documents |
| Lucene.BenchmarkPassSpec | src/main/java/uk/ac/shef/wit/geo/benchmark/LuceneBenchmark.java:201-231 | `results` holds one entry per query: `(0, -1.0)` without hits, otherwise the top hit's distance with its parsed id, or id 0 when reading it failed; the found count counts queries whose id was read; every query's hits count as candidates |
| Lucene.BenchmarkPassFails | src/main/java/uk/ac/shef/wit/geo/benchmark/LuceneBenchmark.java:210-222 | the pass throws exactly when some query has hits but no top document, or a stored id that is not an integer |
| Lucene.CreatedIndexIds | src/main/java/uk/ac/shef/wit/geo/benchmark/LuceneBenchmark.java:219-221 | against an index setup built, a top document whose stored fields are those of the j-th document written records id j + 1 and counts as found, whatever internal number Lucene gave it |
| Lucene.Benchmark | src/main/java/uk/ac/shef/wit/geo/benchmark/LuceneBenchmark.java:201-231 | a failing fetch of the query points aborts `benchmark`; on success `results` has max(numberOfQueryPoints, 0) entries and each count list gains one value |
| Jsi.SetEachLast | src/main/java/uk/ac/shef/wit/geo/benchmark/JsiBenchmark.java:71-75 | setting every reported id on the `AtomicInteger` in turn leaves the last one, or the starting value when nothing is reported |
| Jsi.LastReported | src/main/java/uk/ac/shef/wit/geo/benchmark/JsiBenchmark.java:71-75 | the value the `AtomicInteger` ends at after the callbacks, starting from 0: 0 when nothing is reported, otherwise the last reported id |
| Jsi.QueryProbe | src/main/java/uk/ac/shef/wit/geo/benchmark/JsiBenchmark.java:69-79 | a query counts as found exactly when its recorded id is positive, and contributes no candidates |
| Jsi.QueryPassResults | src/main/java/uk/ac/shef/wit/geo/benchmark/JsiBenchmark.java:68-80 | after `query` the earlier results are kept as a prefix, then one `(last reported id or 0, -1.0)` entry per query, in order |
| Jsi.QueryPassCounts | src/main/java/uk/ac/shef/wit/geo/benchmark/JsiBenchmark.java:67-83 | both `candidateCounts` and `nearestCounts` gain the number of queries whose id is positive |
| Jsi.FoundIffReported | src/main/java/uk/ac/shef/wit/geo/benchmark/JsiBenchmark.java:76-78 | with setup's ids 1..N, a query is found exactly when the R-tree reported something, and the id is at most N |
| Jsi.Query | src/main/java/uk/ac/shef/wit/geo/benchmark/JsiBenchmark.java:62-84 | `query` fails exactly when fetching the query points does; otherwise `results` keeps its earlier entries and grows by max(numberOfQueryPoints, 0), and each count list gains one value |
| Jeo.BenchmarkProbe | src/main/java/uk/ac/shef/wit/geo/benchmark/JeoBenchmark.java:60-68 | a query contributes no candidates and records the distance -1.0 |
| Jeo.BenchmarkProbeSpec | src/main/java/uk/ac/shef/wit/geo/benchmark/JeoBenchmark.java:60-68 | a query records its first neighbour's id when the list is non-null and non-empty, and `(0, -1.0)` otherwise; it counts as found exactly in the first case |
| Jeo.BenchmarkPassResults | src/main/java/uk/ac/shef/wit/geo/benchmark/JeoBenchmark.java:59-69 | after `benchmark` the earlier results are kept as a prefix, then one entry per query, in order: the first neighbour's id, or `(0, -1.0)` for a null or empty list |
| Jeo.BenchmarkPassCounts | src/main/java/uk/ac/shef/wit/geo/benchmark/JeoBenchmark.java:58-72 | both count lists gain the number of queries with a non-null, non-empty neighbour list |
| Jeo.FoundIffPositiveId | src/main/java/uk/ac/shef/wit/geo/benchmark/JeoBenchmark.java:63-67 | with setup's ids 1..N, an entry's id is positive exactly when the query counted as found, and it is at most N |
| Jeo.Benchmark | src/main/java/uk/ac/shef/wit/geo/benchmark/JeoBenchmark.java:56-73 | `benchmark` fails exactly when fetching the query points does; otherwise `results` keeps its earlier entries and grows by max(numberOfQueryPoints, 0), and each count list gains one value |

## Left out

- Floating point. The model has no double or float arithmetic, so it does not
  model these:
  - the `(float)` casts of coordinates in JSI;
  - Lucene's `floatValue()` distance;
  - the exact text `Double.toString` produces.
- The libraries' internals are oracles:
  - JTS validity and orthodromic distance, and the GeoTools spatial index;
  - Lucene's three query functions (`nearest`, `distanceSortQuery`, `sortQuery`), which enter only as the `search` parameter;
  - the JSI R-tree and the jeospatial VP-tree.
- Geotools.QueryProbe: the candidate distances are integers, so NaN is not
  modelled. In Java, a NaN distance never passes the strict `>` test, so a
  query whose candidates all have NaN distances records `(0, -1.0)` even
  though it counted as found.
- Geotools.QueryProbe: the range checks of `JTS.orthodromicDistance`, which
  throws for a coordinate outside the geographic range, are not modelled.
  Only a loaded dataset file can hold such a point.
- Lucene.CreateIndex: `new LatLonPoint` and `new LatLonDocValuesField`
  (LuceneBenchmark.java:134-135) throw `IllegalArgumentException` for a
  latitude outside [-90, 90] or a longitude outside [-180, 180]. The model
  indexes every point, so `setup` succeeds on an index dataset file holding
  such a point, where Java fails.
- Lucene.BenchmarkProbe: the query functions check the query point's range
  in the same way and throw outside it; `search` is total, so this is not
  modelled.
- Lucene.Setup: the index on disk is not part of the file-system model.
  - Whether something exists at the index path, and its document count, are
    the `existingDocs` parameter.
  - Writing the index (`OpenMode.CREATE`, commit, close) is not modelled.
  - Errors from opening a `DirectoryReader` are not modelled.
- Lucene.BenchmarkProbe: `Integer.parseInt` accepts only 32-bit values. The
  model's parser accepts any integer.
- Lucene.BenchmarkProbe: the search is total, so two exceptions are not modelled:
  - the search functions rethrow an `IOException` of the searcher as a
    `RuntimeException` (LuceneBenchmark.java:159-162, 177-180, 193-196);
  - the `(Double)` cast of a `FieldDoc`'s sort field can throw
    `ClassCastException` (:216). A `FieldDoc` here always carries a number.
- Geotools.QueryProbe: the `distance` oracle is total, so the
  `TransformException` that `JTS.orthodromicDistance` can throw
  (GeotoolsBenchmark.java:113, 135, 144) is not modelled.
- Dataset.GetPointsLoads: the reader accepts only the writer's text: an
  optional minus sign, digits, a point and exactly six digits.
  `Double.parseDouble` accepts more, such as `50.5`, exponents and
  surrounding blanks. A file in such a form loads in Java but is a
  `MalformedLine` error in the model. That includes almost every file the
  Java program writes, since `Double.toString` usually prints more than six
  fractional digits.
- Runs.QueryRadiusDegrees: the model's quotient is exact. Java's
  `queryRadiusMetres / 100000f` rounds to the nearest float.
- Runs.Number: ids and counters are unbounded; the `int` and `long`
  wrap-around is not modelled.
- Dataset.GetPoints: the only read error modelled is a directory at the
  dataset path. Other I/O failures of the disk are not.
- The console summary `teardown` prints (averages formatted with `%.0f`).
- JMH scheduling: how many times a benchmark method runs per iteration.
  Because of this, JSI and jeospatial accumulate results across passes. The
  model shows it in their pass lemmas, as results being appended.
- Progress bars, logging, `synchronized`, `close()`, and the unreachable
  `UnsupportedOperationException` default of `LuceneType`.

=== FILE: base.dfy ===
/**
 The failure-carrying datatypes shared by the whole model, and the one error
 type that stands for every exception the benchmark harness lets escape.
 */
module Base {

  /** A value that may be absent; `None` stands for a Java `null`. */
  datatype Option<+T> = None | Some(value: T)

  /** The outcome of an operation that can throw. */
  datatype Result<+T> = Ok(value: T) | Err(error: Error)

  /**
   The exceptions the harness raises or lets through. Every one of them is a
   `RuntimeException` in the Java code and aborts the benchmark run; the
   constructors only record which branch threw it.
   */
  datatype Error =
    | MkdirsFailed(path: string)               // the output directory could not be created
    | NotADirectory(path: string)              // the output path exists and is not a directory
    | ReadFailed(path: string)                 // a dataset file could not be opened for reading
    | WriteFailed(path: string)                // a file could not be opened for writing
    | MalformedLine(line: nat)                 // a dataset line is not `lat,lon`
    | WrongPointCount(expected: int, found: nat) // a dataset file holds the wrong number of points
    | InvalidBounds                            // a random draw from an empty range
    | MissingFeatureId                         // a GeoTools feature without an `id` attribute
    | MissingTopHit                            // Lucene reported hits but returned no top document
    | MalformedStoredId(doc: nat)              // a Lucene document's stored id is not an integer
}

=== FILE: dataset.dfy ===
/**
 The point-dataset cache of `AbstractBenchmark`: the index and query point
 sets are stored as `lat,lon` lines in `out/<prefix>-<N>.csv`; an existing
 file is loaded and its size checked, a missing one is filled with random
 points inside the configured box and written back in generation order.
 */
module Dataset {
  import opened Base
  import opened Text
  import opened FileStore

  const IndexPrefix: string := "benchmark-index-points"
  const QueryPrefix: string := "benchmark-query-points"
  const OutputDirectoryName: string := "out"

  /** A `double[]{latitude, longitude}`, both in fixed-point degrees. */
  datatype Point = Point(lat: int, lon: int)

  /**
   The benchmark parameters; the generation box is in whole degrees, as the
   `int` fields of `AbstractBenchmark` are.
   */
  datatype Params = Params(
    numberOfIndexPoints: int,
    numberOfQueryPoints: int,
    queryRadiusMetres: int,
    minLat: int, maxLat: int,
    minLon: int, maxLon: int)

  /** The field initialisers of `AbstractBenchmark`: roughly the United Kingdom. */
  const DefaultParams: Params := Params(10000000, 1000, 1000, 48, 58, -5, 5)

  /**
   What the environment decides: whether `mkdirs` succeeds, and the stream of
   raw random numbers behind `ThreadLocalRandom` (draw 2i gives the latitude
   of the i-th generated point, draw 2i+1 its longitude).
   */
  datatype Env = Env(mkdirsSucceeds: bool, random: nat -> nat)

  // ---------------------------------------------------------------- file names

  function DatasetFileName(prefix: string, n: int): string {
    prefix + "-" + IntText(n) + ".csv"
  }

  function DatasetPath(prefix: string, n: int): string {
    Join(OutputDirectoryName, DatasetFileName(prefix, n))
  }

  /** No two (role, size) keys share a dataset file, and the index and query roles never do. */
  lemma DatasetFileNamesDistinct(p1: string, n1: int, p2: string, n2: int)
    requires p1 == IndexPrefix || p1 == QueryPrefix
    requires p2 == IndexPrefix || p2 == QueryPrefix
    ensures DatasetFileName(p1, n1) == DatasetFileName(p2, n2) <==> p1 == p2 && n1 == n2
  {
    if DatasetFileName(p1, n1) == DatasetFileName(p2, n2) {
      var a1, a2 := p1 + "-" + IntText(n1), p2 + "-" + IntText(n2);
      StripSuffix(a1, a2, ".csv");
      assert |p1| == |p2| == 22;
      assert a1[..22] == p1 && a2[..22] == p2;
      StripPrefix(p1 + "-", IntText(n1), IntText(n2));
      IntTextInjective(n1, n2);
    }
  }

  lemma DatasetPathsDistinct(p1: string, n1: int, p2: string, n2: int)
    requires p1 == IndexPrefix || p1 == QueryPrefix
    requires p2 == IndexPrefix || p2 == QueryPrefix
    ensures DatasetPath(p1, n1) == DatasetPath(p2, n2) <==> p1 == p2 && n1 == n2
  {
    var a, b := DatasetPath(p1, n1), DatasetPath(p2, n2);
    if a == b {
      assert DatasetFileName(p1, n1) == a[4..] && DatasetFileName(p2, n2) == b[4..];
    }
    DatasetFileNamesDistinct(p1, n1, p2, n2);
  }

  // ---------------------------------------------------------------- line format

  /** The line written for one point: `latitude,longitude`. */
  function PointLine(p: Point): string {
    FixedText(p.lat) + "," + FixedText(p.lon)
  }

  function PointLines(pts: seq<Point>): (lines: seq<string>)
    ensures |lines| == |pts|
    ensures forall i :: 0 <= i < |pts| ==> lines[i] == PointLine(pts[i])
  {
    seq(|pts|, i requires 0 <= i < |pts| => PointLine(pts[i]))
  }

  /**
   One line read back: split on `,`, the first two fields parsed as numbers
   (further fields are ignored; fewer than two, or an unparsable field, throw).
   */
  function ParsePointLine(line: string): Option<Point> {
    var latlon := JavaSplit(line, ',');
    if |latlon| < 2 then None
    else
      match (ParseFixed(latlon[0]), ParseFixed(latlon[1]))
      case (Some(lat), Some(lon)) => Some(Point(lat, lon))
      case _ => None
  }

  /** Reads every line of a dataset file in order; the first bad line aborts the read. */
  function ReadPoints(lines: seq<string>): Result<seq<Point>> {
    ParseLines(lines, ParsePointLine)
  }

  lemma PointLineRoundTrip(p: Point)
    ensures ParsePointLine(PointLine(p)) == Some(p)
  {
    NumericCharsExclude(FixedText(p.lat), ',');
    NumericCharsExclude(FixedText(p.lon), ',');
    JavaSplitPair(FixedText(p.lat), FixedText(p.lon), ',');
    FixedTextRoundTrip(p.lat);
    FixedTextRoundTrip(p.lon);
  }

  /** Reading back the lines written for a point sequence yields that same sequence. */
  lemma PointLinesRoundTrip(pts: seq<Point>)
    ensures ReadPoints(PointLines(pts)) == Ok(pts)
  {
    var lines := PointLines(pts);
    forall i | 0 <= i < |lines| ensures ParsePointLine(lines[i]) == Some(pts[i]) {
      PointLineRoundTrip(pts[i]);
    }
    ParseLinesDetermined(lines, ParsePointLine, pts);
  }

  // ---------------------------------------------------------------- generation

  /** `nextDouble(origin, bound)`: a value in [origin, bound) degrees picked by a raw random number. */
  function NextInRange(origin: int, bound: int, raw: nat): (v: int)
    requires origin < bound
    ensures origin * Scale <= v < bound * Scale
  {
    var width := (bound - origin) * Scale;
    assert width >= Scale;
    origin * Scale + raw % width
  }

  /** The generation box is non-empty in both directions (otherwise `nextDouble` throws). */
  predicate ValidBox(params: Params) {
    params.minLat < params.maxLat && params.minLon < params.maxLon
  }

  /** Latitude in [minLat, maxLat) and longitude in [minLon, maxLon). */
  predicate InBox(params: Params, p: Point) {
    && params.minLat * Scale <= p.lat < params.maxLat * Scale
    && params.minLon * Scale <= p.lon < params.maxLon * Scale
  }

  /** `createRandomLatLon` for the i-th generated point. */
  function RandomLatLon(params: Params, random: nat -> nat, i: nat): (p: Point)
    requires ValidBox(params)
    ensures InBox(params, p)
  {
    Point(NextInRange(params.minLat, params.maxLat, random(2 * i)),
          NextInRange(params.minLon, params.maxLon, random(2 * i + 1)))
  }

  /** The generate loop: `n` random points (none when `n` is not positive). */
  function GeneratePoints(params: Params, n: int, random: nat -> nat): (pts: seq<Point>)
    requires n > 0 ==> ValidBox(params)
    ensures |pts| == if n < 0 then 0 else n
    ensures forall i :: 0 <= i < |pts| ==> InBox(params, pts[i])
  {
    if n <= 0 then []
    else seq(n, i requires 0 <= i < n => RandomLatLon(params, random, i))
  }

  // ---------------------------------------------------------------- load or generate

  /**
   `getPoints(prefix, n)`: make sure the output directory exists; load the
   dataset file when it exists (failing unless it holds exactly `n` points);
   otherwise generate `n` points and write them to the file.
   */
  function GetPoints(fs: FileSystem, params: Params, env: Env, prefix: string, n: int)
    : (r: Result<(FileSystem, seq<Point>)>)
    ensures r.Ok? ==> IsDirectory(r.value.0, OutputDirectoryName)
    ensures r.Ok? ==> |r.value.1| == if n < 0 then 0 else n
    ensures r.Ok? ==> var path := DatasetPath(prefix, n);
                      && path in r.value.0 && r.value.0[path].File?
                      && ReadPoints(r.value.0[path].lines) == Ok(r.value.1)
    ensures r.Ok? ==> UnchangedExcept(fs, r.value.0, {OutputDirectoryName, DatasetPath(prefix, n)})
    ensures CreateDirectory(fs, OutputDirectoryName, env.mkdirsSucceeds).Err? ==>
              r == Err(CreateDirectory(fs, OutputDirectoryName, env.mkdirsSucceeds).error)
    ensures CreateDirectory(fs, OutputDirectoryName, env.mkdirsSucceeds).Ok?
            && DatasetPath(prefix, n) in fs && fs[DatasetPath(prefix, n)].Directory? ==>
              r == Err(ReadFailed(DatasetPath(prefix, n)))
  {
    match CreateDirectory(fs, OutputDirectoryName, env.mkdirsSucceeds)
    case Err(e) => Err(e)
    case Ok(fs1) =>
      var path := DatasetPath(prefix, n);
      if path in fs1 then
        if fs1[path].Directory? then Err(ReadFailed(path))
        else
          match ReadPoints(fs1[path].lines)
          case Err(e) => Err(e)
          case Ok(pts) =>
            if |pts| != n then Err(WrongPointCount(n, |pts|)) else Ok((fs1, pts))
      else if n > 0 && !ValidBox(params) then
        Err(InvalidBounds)
      else
        var pts := GeneratePoints(params, n, env.random);
        match WriteFile(fs1, OutputDirectoryName, DatasetFileName(prefix, n), PointLines(pts))
        case Err(e) => Err(e)
        case Ok(fs2) => PointLinesRoundTrip(pts); Ok((fs2, pts))
  }

  function GetIndexPoints(fs: FileSystem, params: Params, env: Env): Result<(FileSystem, seq<Point>)> {
    GetPoints(fs, params, env, IndexPrefix, params.numberOfIndexPoints)
  }

  function GetQueryPoints(fs: FileSystem, params: Params, env: Env): Result<(FileSystem, seq<Point>)> {
    GetPoints(fs, params, env, QueryPrefix, params.numberOfQueryPoints)
  }

  /**
   The load path: when the dataset file exists, the call succeeds exactly when
   every line parses and the number of points equals `n`, returns those points
   and writes nothing.
   */
  lemma GetPointsLoads(fs: FileSystem, params: Params, env: Env, prefix: string, n: int)
    requires IsDirectory(fs, OutputDirectoryName) || OutputDirectoryName !in fs
    requires DatasetPath(prefix, n) in fs && fs[DatasetPath(prefix, n)].File?
    ensures var read := ReadPoints(fs[DatasetPath(prefix, n)].lines);
            var r := GetPoints(fs, params, env, prefix, n);
            && (r.Ok? <==> (IsDirectory(fs, OutputDirectoryName) || env.mkdirsSucceeds)
                           && read.Ok? && |read.value| == n)
            && (r.Ok? ==> r.value.1 == read.value
                          && UnchangedExcept(fs, r.value.0, {OutputDirectoryName}))
            && ((IsDirectory(fs, OutputDirectoryName) || env.mkdirsSucceeds) ==>
                  && (read.Err? ==> r == Err(read.error))
                  && (read.Ok? && |read.value| != n ==> r == Err(WrongPointCount(n, |read.value|))))
  {
  }

  /**
   The generate path: when no dataset file exists, the call succeeds exactly
   when the output directory is (or can be made) a directory and the box is
   non-empty (or nothing is drawn); the points lie in the box and the file
   holds one line per point in generation order.
   */
  lemma GetPointsGenerates(fs: FileSystem, params: Params, env: Env, prefix: string, n: int)
    requires DatasetPath(prefix, n) !in fs
    ensures var r := GetPoints(fs, params, env, prefix, n);
            && (r.Ok? <==> (IsDirectory(fs, OutputDirectoryName) || (OutputDirectoryName !in fs && env.mkdirsSucceeds))
                           && (n > 0 ==> ValidBox(params)))
            && (r.Ok? ==> && (forall i :: 0 <= i < |r.value.1| ==> InBox(params, r.value.1[i]))
                          && r.value.0[DatasetPath(prefix, n)] == File(PointLines(r.value.1)))
  {
  }

  /**
   With the field initialisers' box (latitude 48 to 58, longitude -5 to 5)
   no draw meets an empty range: when no dataset file exists and the output
   directory is usable, the call succeeds and every point lies in that box.
   */
  lemma DefaultParamsGenerate(fs: FileSystem, env: Env, prefix: string, n: int)
    requires DatasetPath(prefix, n) !in fs
    requires IsDirectory(fs, OutputDirectoryName) || (OutputDirectoryName !in fs && env.mkdirsSucceeds)
    ensures var r := GetPoints(fs, DefaultParams, env, prefix, n);
            && r.Ok?
            && forall i :: 0 <= i < |r.value.1| ==>
                 && 48 * Scale <= r.value.1[i].lat < 58 * Scale
                 && -5 * Scale <= r.value.1[i].lon < 5 * Scale
  {
  }

  /**
   Once a call for (prefix, n) with n >= 0 has succeeded, a second call with
   the same key loads the file and returns the identical point sequence,
   leaving the file system as it is.
   */
  lemma GetPointsReproducible(fs: FileSystem, params: Params, env: Env, env': Env, prefix: string, n: int)
    requires n >= 0
    requires GetPoints(fs, params, env, prefix, n).Ok?
    ensures var first := GetPoints(fs, params, env, prefix, n).value;
            GetPoints(first.0, params, env', prefix, n) == Ok(first)
  {
  }

  /**
   A negative size is not reproducible: the first call generates no points and
   writes an empty file, and every later call then fails its count check.
   */
  lemma NegativeSizeNotReproducible(fs: FileSystem, params: Params, env: Env, env': Env, prefix: string, n: int)
    requires n < 0
    requires GetPoints(fs, params, env, prefix, n).Ok?
    ensures GetPoints(fs, params, env, prefix, n).value.1 == []
    ensures var first := GetPoints(fs, params, env, prefix, n).value;
            GetPoints(first.0, params, env', prefix, n) == Err(WrongPointCount(n, 0))
  {
  }

  /**
   Loading the query points does not disturb the index dataset: after both
   have been fetched, fetching the index points again yields the same points.
   */
  lemma QueryPointsKeepIndexDataset(fs: FileSystem, params: Params, env1: Env, env2: Env, env3: Env)
    requires params.numberOfIndexPoints >= 0
    requires GetIndexPoints(fs, params, env1).Ok?
    requires GetQueryPoints(GetIndexPoints(fs, params, env1).value.0, params, env2).Ok?
    ensures var index := GetIndexPoints(fs, params, env1).value;
            var query := GetQueryPoints(index.0, params, env2).value;
            GetIndexPoints(query.0, params, env3) == Ok((query.0, index.1))
  {
  }
}

=== FILE: filestore.dfy ===
/**
 The file system the harness reads and writes, as a map from path to node.
 A file is the sequence of its lines (what `BufferedReader.readLine` yields
 and `BufferedWriter.newLine` separates); whether `mkdirs` succeeds is a
 parameter, because it depends on the operating system.
 */
module FileStore {
  import opened Base

  datatype Node = Directory | File(lines: seq<string>)

  type FileSystem = map<string, Node>

  /** `Paths.get(dir, name)`. */
  function Join(dir: string, name: string): string {
    dir + "/" + name
  }

  predicate IsDirectory(fs: FileSystem, path: string) {
    path in fs && fs[path].Directory?
  }

  /** `fs'` differs from `fs` at most at the paths in `changed`. */
  ghost predicate UnchangedExcept(fs: FileSystem, fs': FileSystem, changed: set<string>) {
    forall p :: p !in changed ==> (p in fs <==> p in fs') && (p in fs ==> fs'[p] == fs[p])
  }

  /**
   Makes sure `path` is a directory: an absent path is created (which fails
   when `mkdirs` fails), an existing directory is kept, and any other existing
   node is an error.
   */
  function CreateDirectory(fs: FileSystem, path: string, mkdirsSucceeds: bool): (r: Result<FileSystem>)
    ensures r.Ok? <==> IsDirectory(fs, path) || (path !in fs && mkdirsSucceeds)
    ensures path in fs && !fs[path].Directory? ==> r == Err(NotADirectory(path))
    ensures path !in fs && !mkdirsSucceeds ==> r == Err(MkdirsFailed(path))
    ensures r.Ok? ==> IsDirectory(r.value, path) && UnchangedExcept(fs, r.value, {path})
    ensures IsDirectory(fs, path) ==> r == Ok(fs)
  {
    if path !in fs then
      if mkdirsSucceeds then Ok(fs[path := Directory]) else Err(MkdirsFailed(path))
    else if fs[path].Directory? then
      Ok(fs)
    else
      Err(NotADirectory(path))
  }

  /**
   `new FileWriter(Join(dir, name))` followed by writing `lines`: the file is
   created or truncated; it fails when `dir` is not a directory or the target
   is itself a directory.
   */
  function WriteFile(fs: FileSystem, dir: string, name: string, lines: seq<string>): (r: Result<FileSystem>)
    ensures r.Ok? <==> IsDirectory(fs, dir) && !IsDirectory(fs, Join(dir, name))
    ensures r.Ok? ==> Join(dir, name) in r.value && r.value[Join(dir, name)] == File(lines)
    ensures r.Ok? ==> UnchangedExcept(fs, r.value, {Join(dir, name)})
  {
    var path := Join(dir, name);
    if !IsDirectory(fs, dir) || IsDirectory(fs, path) then Err(WriteFailed(path))
    else Ok(fs[path := File(lines)])
  }
}

=== FILE: geotools.dfy ===
/**
 The GeoTools backend: setup turns every valid index point into a point
 feature numbered 1, 2, 3, ...; a query takes the features inside the
 radius box around the query point (the spatial index is an oracle) and
 keeps the first one with the least distance.
 */
module Geotools {
  import opened Base
  import opened FileStore
  import opened Dataset
  import opened Recorder
  import opened Runs

  const ClassName: string := "GeotoolsBenchmark"

  /** A JTS coordinate: `x` is the longitude, `y` the latitude. */
  datatype Coordinate = Coordinate(x: int, y: int)

  /** `new Coordinate(latlon[1], latlon[0])`. */
  function ToCoordinate(latlon: Point): Coordinate {
    Coordinate(latlon.lon, latlon.lat)
  }

  /** A point feature; its `id` attribute stays null until setup sets it. */
  datatype SimpleFeature = SimpleFeature(geometry: Coordinate, id: Option<int>)

  // ---------------------------------------------------------------- setup

  /**
   `createSimpleFeature`: a feature for the geometry, or null when the
   geometry is null or not valid (`isValid` stands for JTS's `Geometry.isValid`).
   */
  function CreateSimpleFeature(geometry: Option<Coordinate>, isValid: Coordinate -> bool)
    : (r: Option<SimpleFeature>)
    ensures r.None? <==> geometry.None? || !isValid(geometry.value)
    ensures r.Some? ==> r.value.geometry == geometry.value && r.value.id.None?
  {
    if geometry.Some? && isValid(geometry.value) then Some(SimpleFeature(geometry.value, None))
    else None
  }

  /**
   The setup loop from counter `i`: each point becomes a feature; a valid
   feature gets id `++i` and is kept, an invalid one is dropped without
   using up an id.
   */
  function IndexFeatures(latlons: seq<Point>, isValid: Coordinate -> bool, i: int): seq<SimpleFeature> {
    if |latlons| == 0 then []
    else
      match CreateSimpleFeature(Some(ToCoordinate(latlons[0])), isValid)
      case None => IndexFeatures(latlons[1..], isValid, i)
      case Some(feature) => [feature.(id := Some(i + 1))] + IndexFeatures(latlons[1..], isValid, i + 1)
  }

  /** The coordinates of the valid points, in input order. */
  function ValidCoordinates(latlons: seq<Point>, isValid: Coordinate -> bool): seq<Coordinate> {
    if |latlons| == 0 then []
    else
      var c := ToCoordinate(latlons[0]);
      (if isValid(c) then [c] else []) + ValidCoordinates(latlons[1..], isValid)
  }

  lemma {:induction false} IndexFeaturesNumbering(latlons: seq<Point>, isValid: Coordinate -> bool, i: int)
    ensures var features := IndexFeatures(latlons, isValid, i);
            var valid := ValidCoordinates(latlons, isValid);
            |features| == |valid|
            && forall k :: 0 <= k < |features| ==> features[k] == SimpleFeature(valid[k], Some(i + k + 1))
  {
    if |latlons| > 0 {
      IndexFeaturesNumbering(latlons[1..], isValid, i);
      IndexFeaturesNumbering(latlons[1..], isValid, i + 1);
    }
  }

  lemma {:induction false} AllValidCoordinates(latlons: seq<Point>, isValid: Coordinate -> bool)
    requires forall k :: 0 <= k < |latlons| ==> isValid(ToCoordinate(latlons[k]))
    ensures var valid := ValidCoordinates(latlons, isValid);
            |valid| == |latlons| && forall k :: 0 <= k < |latlons| ==> valid[k] == ToCoordinate(latlons[k])
  {
    if |latlons| > 0 {
      assert isValid(ToCoordinate(latlons[0]));
      AllValidCoordinates(latlons[1..], isValid);
    }
  }

  /**
   `setup`: load (or generate) the index points and build the features. The
   features are exactly the valid points, in input order, with ids 1, 2, 3, ...
   and when every point is valid the k-th feature is the k-th point with id k + 1.
   */
  function Setup(fs: FileSystem, params: Params, env: Env, isValid: Coordinate -> bool)
    : (r: Result<(FileSystem, seq<SimpleFeature>)>)
    ensures r.Ok? <==> GetIndexPoints(fs, params, env).Ok?
    ensures r.Ok? ==>
              var (fs', latlons) := GetIndexPoints(fs, params, env).value;
              var valid := ValidCoordinates(latlons, isValid);
              && r.value.0 == fs'
              && |r.value.1| == |valid|
              && (forall k :: 0 <= k < |valid| ==> r.value.1[k] == SimpleFeature(valid[k], Some(k + 1)))
              && ((forall k :: 0 <= k < |latlons| ==> isValid(ToCoordinate(latlons[k]))) ==>
                    |r.value.1| == |latlons|
                    && forall k :: 0 <= k < |latlons| ==> r.value.1[k] == SimpleFeature(ToCoordinate(latlons[k]), Some(k + 1)))
  {
    match GetIndexPoints(fs, params, env)
    case Err(e) => Err(e)
    case Ok((fs', latlons)) =>
      IndexFeaturesNumbering(latlons, isValid, 0);
      if forall k :: 0 <= k < |latlons| ==> isValid(ToCoordinate(latlons[k])) then
        AllValidCoordinates(latlons, isValid);
        Ok((fs', IndexFeatures(latlons, isValid, 0)))
      else
        Ok((fs', IndexFeatures(latlons, isValid, 0)))
  }

  // ---------------------------------------------------------------- nearest candidate

  /**
   The candidate loop from position `i`, `best` being the nearest candidate so
   far (None standing for the initial infinite distance): a candidate replaces
   it only when strictly closer.
   */
  function NearestFrom(ds: seq<int>, i: nat, best: Option<nat>): (r: Option<nat>)
    requires i <= |ds|
    requires best.Some? ==> best.value < i
    ensures r.Some? ==> r.value < |ds|
    decreases |ds| - i
  {
    if i == |ds| then best
    else if best.None? || ds[best.value] > ds[i] then NearestFrom(ds, i + 1, Some(i))
    else NearestFrom(ds, i + 1, best)
  }

  function Nearest(ds: seq<int>): (r: Option<nat>)
    ensures r.Some? ==> r.value < |ds|
  {
    NearestFrom(ds, 0, None)
  }

  /** Position `k` holds a least value, and no earlier position holds one. */
  predicate IsFirstMinimum(ds: seq<int>, k: nat) {
    && k < |ds|
    && (forall j :: 0 <= j < |ds| ==> ds[k] <= ds[j])
    && (forall j :: 0 <= j < k ==> ds[k] < ds[j])
  }

  lemma {:induction false} NearestFromFindsFirstMinimum(ds: seq<int>, i: nat, best: Option<nat>)
    requires i <= |ds|
    requires best.None? <==> i == 0
    requires best.Some? ==> IsFirstMinimum(ds[..i], best.value)
    ensures NearestFrom(ds, i, best).None? <==> |ds| == 0
    ensures NearestFrom(ds, i, best).Some? ==> IsFirstMinimum(ds, NearestFrom(ds, i, best).value)
    decreases |ds| - i
  {
    if i == |ds| {
      assert ds[..i] == ds;
    } else {
      var next := if best.None? || ds[best.value] > ds[i] then Some(i) else best;
      assert IsFirstMinimum(ds[..i + 1], next.value) by {
        var prefix := ds[..i + 1];
        assert forall j :: 0 <= j < i ==> prefix[j] == ds[..i][j];
      }
      NearestFromFindsFirstMinimum(ds, i + 1, next);
    }
  }

  /**
   The strict comparison picks the first candidate of least distance: there
   is a choice exactly when there are candidates, and a position is chosen
   exactly when it is the first minimum, so ties go to the earliest candidate.
   */
  lemma NearestIsFirstMinimum(ds: seq<int>)
    ensures Nearest(ds).None? <==> |ds| == 0
    ensures forall k: nat :: Nearest(ds) == Some(k) <==> IsFirstMinimum(ds, k)
  {
    NearestFromFindsFirstMinimum(ds, 0, None);
  }

  // ---------------------------------------------------------------- query

  /** The orthodromic distance from `coord` to each candidate, in iteration order. */
  function Distances(coord: Coordinate, candidates: seq<SimpleFeature>,
                     distance: (Coordinate, Coordinate) -> int): (ds: seq<int>)
    ensures |ds| == |candidates|
  {
    seq(|candidates|, j requires 0 <= j < |candidates| => distance(coord, candidates[j].geometry))
  }

  /**
   One iteration of the query loop. `candidatesOf` is the spatial index's
   bounding-box lookup around a coordinate and `distance` the orthodromic
   distance. A non-empty candidate set is counted and scanned; the nearest
   feature's id and distance are recorded, or `(0, -1.0)` when there is none.
   Unboxing a null id throws.
   */
  function QueryProbe(latlon: Point, candidatesOf: Coordinate -> seq<SimpleFeature>,
                      distance: (Coordinate, Coordinate) -> int): Result<Probe>
  {
    var coord := ToCoordinate(latlon);
    var candidates := candidatesOf(coord);
    var nonEmpty := |candidates| != 0;
    var nearest := if nonEmpty then Nearest(Distances(coord, candidates, distance)) else None;
    match nearest
    case None => Ok(Probe(NoMatch, if nonEmpty then |candidates| else 0, nonEmpty))
    case Some(k) =>
      match candidates[k].id
      case None => Err(MissingFeatureId)
      case Some(id) =>
        Ok(Probe(Entry(id, distance(coord, candidates[k].geometry)),
                 if nonEmpty then |candidates| else 0, nonEmpty))
  }

  /** Queries whose candidate set is not empty. */
  function HasCandidates(candidatesOf: Coordinate -> seq<SimpleFeature>): Point -> bool {
    latlon => |candidatesOf(ToCoordinate(latlon))| > 0
  }

  function CandidateCount(candidatesOf: Coordinate -> seq<SimpleFeature>): Point -> nat {
    latlon => |candidatesOf(ToCoordinate(latlon))|
  }

  /**
   What one query point must be recorded as: `(0, -1.0)` without candidates,
   otherwise the id and distance of the first candidate of least distance.
   */
  ghost predicate RecordsNearest(e: Entry, latlon: Point, candidatesOf: Coordinate -> seq<SimpleFeature>,
                                 distance: (Coordinate, Coordinate) -> int)
  {
    var coord := ToCoordinate(latlon);
    var candidates := candidatesOf(coord);
    && (|candidates| == 0 ==> e == NoMatch)
    && (|candidates| > 0 ==>
          exists k: nat :: IsFirstMinimum(Distances(coord, candidates, distance), k)
                      && candidates[k].id.Some?
                      && e == Entry(candidates[k].id.value, distance(coord, candidates[k].geometry)))
  }

  lemma QueryProbeSpec(latlon: Point, candidatesOf: Coordinate -> seq<SimpleFeature>,
                       distance: (Coordinate, Coordinate) -> int)
    requires QueryProbe(latlon, candidatesOf, distance).Ok?
    ensures var p := QueryProbe(latlon, candidatesOf, distance).value;
            && RecordsNearest(p.entry, latlon, candidatesOf, distance)
            && p.found == HasCandidates(candidatesOf)(latlon)
            && p.candidates == CandidateCount(candidatesOf)(latlon)
  {
    var coord := ToCoordinate(latlon);
    NearestIsFirstMinimum(Distances(coord, candidatesOf(coord), distance));
  }

  /** The loop over all query points, `results` having been cleared first. */
  function QueryPass(stats: Stats, queries: seq<Point>, candidatesOf: Coordinate -> seq<SimpleFeature>,
                     distance: (Coordinate, Coordinate) -> int): Result<Stats>
  {
    match ProbeAll(queries, latlon => QueryProbe(latlon, candidatesOf, distance))
    case Err(e) => Err(e)
    case Ok(probes) => Ok(RecordCleared(stats, Fold(probes)))
  }

  /**
   `query`: `results` is replaced by one entry per query point, in query
   order, each the nearest candidate or `(0, -1.0)`; `nearestCounts` gains the
   number of queries with candidates and `candidateCounts` the integer average
   of their candidate-set sizes (0 when there were none).
   */
  lemma QueryPassSpec(stats: Stats, queries: seq<Point>, candidatesOf: Coordinate -> seq<SimpleFeature>,
                      distance: (Coordinate, Coordinate) -> int)
    requires QueryPass(stats, queries, candidatesOf, distance).Ok?
    ensures var s := QueryPass(stats, queries, candidatesOf, distance).value;
            var found := Count(queries, HasCandidates(candidatesOf));
            var total := Sum(queries, CandidateCount(candidatesOf));
            && |s.results| == |queries|
            && (forall i :: 0 <= i < |queries| ==> RecordsNearest(s.results[i], queries[i], candidatesOf, distance))
            && s.nearestCounts == stats.nearestCounts + [found]
            && s.candidateCounts == stats.candidateCounts + [if found == 0 then 0 else total / found]
  {
    var probe := latlon => QueryProbe(latlon, candidatesOf, distance);
    var probes := ProbeAll(queries, probe).value;
    forall i | 0 <= i < |queries|
      ensures RecordsNearest(probes[i].entry, queries[i], candidatesOf, distance)
      ensures probes[i].found == HasCandidates(candidatesOf)(queries[i])
      ensures probes[i].candidates == CandidateCount(candidatesOf)(queries[i])
    {
      assert probe(queries[i]) == Ok(probes[i]);
      QueryProbeSpec(queries[i], candidatesOf, distance);
    }
    CountTransfer(probes, Found, queries, HasCandidates(candidatesOf));
    SumTransfer(probes, Candidates, queries, CandidateCount(candidatesOf));
  }

  /** Every candidate the index returns carries an id (as setup's features do): the pass cannot throw. */
  lemma QueryPassSucceeds(stats: Stats, queries: seq<Point>, candidatesOf: Coordinate -> seq<SimpleFeature>,
                          distance: (Coordinate, Coordinate) -> int)
    requires forall c: Coordinate, k :: 0 <= k < |candidatesOf(c)| ==> candidatesOf(c)[k].id.Some?
    ensures QueryPass(stats, queries, candidatesOf, distance).Ok?
  {
  }

  /**
   `query` as the benchmark runs it: fetch the query points, then the pass,
   `bbox` being the index's lookup of a box expanded by a radius in degrees.
   A failing fetch aborts it; when every feature the lookup returns carries an
   id (as setup's do), the pass cannot fail. On success `results` holds one
   entry per query point, `max(numberOfQueryPoints, 0)` of them, and each
   count list gains one value.
   */
  function Query(fs: FileSystem, params: Params, env: Env, stats: Stats,
                 bbox: (Coordinate, int) -> seq<SimpleFeature>, distance: (Coordinate, Coordinate) -> int)
    : (r: Result<(FileSystem, Stats)>)
    ensures GetQueryPoints(fs, params, env).Err? ==> r == Err(GetQueryPoints(fs, params, env).error)
    ensures GetQueryPoints(fs, params, env).Ok?
            && (forall c: Coordinate, rad: int, k :: 0 <= k < |bbox(c, rad)| ==> bbox(c, rad)[k].id.Some?)
            ==> r.Ok?
    ensures r.Ok? ==>
              && r.value.0 == GetQueryPoints(fs, params, env).value.0
              && |r.value.1.results| == (if params.numberOfQueryPoints < 0 then 0 else params.numberOfQueryPoints)
              && |r.value.1.nearestCounts| == |stats.nearestCounts| + 1
              && |r.value.1.candidateCounts| == |stats.candidateCounts| + 1
  {
    var radius := QueryRadiusDegrees(params.queryRadiusMetres);
    match GetQueryPoints(fs, params, env)
    case Err(e) => Err(e)
    case Ok((fs', queries)) =>
      var candidatesOf := coord => bbox(coord, radius);
      assert (forall c: Coordinate, rad: int, k :: 0 <= k < |bbox(c, rad)| ==> bbox(c, rad)[k].id.Some?)
             ==> QueryPass(stats, queries, candidatesOf, distance).Ok? by {
        if forall c: Coordinate, rad: int, k :: 0 <= k < |bbox(c, rad)| ==> bbox(c, rad)[k].id.Some? {
          QueryPassSucceeds(stats, queries, candidatesOf, distance);
        }
      }
      match QueryPass(stats, queries, candidatesOf, distance)
      case Err(e) => Err(e)
      case Ok(stats') =>
        QueryPassSpec(stats, queries, candidatesOf, distance);
        Ok((fs', stats'))
  }
}

=== FILE: jeo.dfy ===
/**
 The jeospatial backend: setup adds every index point to a vantage-point
 tree as a point with id 1, 2, 3, ... (`Runs.SetupNumbered`); a query asks
 for the single nearest neighbour and records its id. The tree search is an
 oracle.
 */
module Jeo {
  import opened Base
  import opened FileStore
  import opened Dataset
  import opened Recorder
  import opened Runs

  const ClassName: string := "JeoBenchmark"

  /**
   One iteration of the benchmark loop. `neighbours` is `getNearestNeighbors(point, 1)`,
   None standing for a null list. A non-empty list counts as found and its
   first point's id is recorded; otherwise the id is 0. No distance is computed.
   */
  function BenchmarkProbe(latlon: Point, neighbours: Point -> Option<seq<Numbered<Point>>>): (p: Probe)
    ensures p.candidates == 0
    ensures p.entry.distance == NoDistance
  {
    match neighbours(latlon)
    case Some(list) =>
      if |list| > 0 then Probe(Entry(list[0].id, NoDistance), 0, true)
      else Probe(NoMatch, 0, false)
    case None => Probe(NoMatch, 0, false)
  }

  function ProbeEach(queries: seq<Point>, neighbours: Point -> Option<seq<Numbered<Point>>>): (ps: seq<Probe>)
    ensures |ps| == |queries|
  {
    seq(|queries|, i requires 0 <= i < |queries| => BenchmarkProbe(queries[i], neighbours))
  }

  /** The loop over all query points; `results` is not cleared beforehand. */
  function BenchmarkPass(stats: Stats, queries: seq<Point>, neighbours: Point -> Option<seq<Numbered<Point>>>)
    : Stats
  {
    RecordAppended(stats, Fold(ProbeEach(queries, neighbours)))
  }

  /** Queries with a non-null, non-empty neighbour list. */
  function HasNeighbour(neighbours: Point -> Option<seq<Numbered<Point>>>): Point -> bool {
    latlon => neighbours(latlon).Some? && |neighbours(latlon).value| > 0
  }

  /** What one query point must be recorded as: its nearest neighbour's id, or `(0, -1.0)`. */
  ghost predicate RecordsNeighbour(e: Entry, latlon: Point, neighbours: Point -> Option<seq<Numbered<Point>>>) {
    && (HasNeighbour(neighbours)(latlon) ==> e == Entry(neighbours(latlon).value[0].id, NoDistance))
    && (!HasNeighbour(neighbours)(latlon) ==> e == NoMatch)
  }

  lemma BenchmarkProbeSpec(latlon: Point, neighbours: Point -> Option<seq<Numbered<Point>>>)
    ensures RecordsNeighbour(BenchmarkProbe(latlon, neighbours).entry, latlon, neighbours)
    ensures BenchmarkProbe(latlon, neighbours).found == HasNeighbour(neighbours)(latlon)
  {
  }

  /**
   `benchmark`, its results: the earlier results stay and one entry per query
   point follows, in query order: the nearest neighbour's id, or `(0, -1.0)`
   without one.
   */
  lemma BenchmarkPassResults(stats: Stats, queries: seq<Point>, neighbours: Point -> Option<seq<Numbered<Point>>>)
    ensures var s := BenchmarkPass(stats, queries, neighbours);
            && |s.results| == |stats.results| + |queries|
            && s.results[..|stats.results|] == stats.results
            && forall i :: 0 <= i < |queries| ==> RecordsNeighbour(s.results[|stats.results| + i], queries[i], neighbours)
  {
    var probes := ProbeEach(queries, neighbours);
    RecordAppendedResults(stats, Fold(probes));
    forall i | 0 <= i < |queries| ensures RecordsNeighbour(probes[i].entry, queries[i], neighbours) {
      BenchmarkProbeSpec(queries[i], neighbours);
    }
  }

  /** `benchmark`, its counters: both count lists gain the number of queries with a neighbour. */
  lemma BenchmarkPassCounts(stats: Stats, queries: seq<Point>, neighbours: Point -> Option<seq<Numbered<Point>>>)
    ensures var s := BenchmarkPass(stats, queries, neighbours);
            var found := Count(queries, HasNeighbour(neighbours));
            && s.nearestCounts == stats.nearestCounts + [found]
            && s.candidateCounts == stats.candidateCounts + [found]
  {
    var probes := ProbeEach(queries, neighbours);
    forall i | 0 <= i < |queries| ensures probes[i].found == HasNeighbour(neighbours)(queries[i]) {
      BenchmarkProbeSpec(queries[i], neighbours);
    }
    CountTransfer(probes, Found, queries, HasNeighbour(neighbours));
  }

  /**
   With the tree setup built, every neighbour has an id in 1..N, so an entry
   has a positive id exactly when the query was counted as found.
   */
  lemma FoundIffPositiveId(latlon: Point, neighbours: Point -> Option<seq<Numbered<Point>>>, n: nat)
    requires neighbours(latlon).Some? ==>
               forall j :: 0 <= j < |neighbours(latlon).value| ==> 1 <= neighbours(latlon).value[j].id <= n
    ensures BenchmarkProbe(latlon, neighbours).found <==> BenchmarkProbe(latlon, neighbours).entry.id > 0
    ensures BenchmarkProbe(latlon, neighbours).entry.id <= n
  {
  }

  /**
   `benchmark` as it runs: fetch the query points, then the pass. It fails
   only when the fetch does; `results` then keeps the earlier entries and
   grows by one per query point, `max(numberOfQueryPoints, 0)` of them, and
   each count list gains one value.
   */
  function Benchmark(fs: FileSystem, params: Params, env: Env, stats: Stats,
                     neighbours: Point -> Option<seq<Numbered<Point>>>)
    : (r: Result<(FileSystem, Stats)>)
    ensures r.Ok? <==> GetQueryPoints(fs, params, env).Ok?
    ensures r.Err? ==> r.error == GetQueryPoints(fs, params, env).error
    ensures r.Ok? ==>
              && r.value.0 == GetQueryPoints(fs, params, env).value.0
              && |r.value.1.results|
                 == |stats.results| + (if params.numberOfQueryPoints < 0 then 0 else params.numberOfQueryPoints)
              && r.value.1.results[..|stats.results|] == stats.results
              && |r.value.1.nearestCounts| == |stats.nearestCounts| + 1
              && |r.value.1.candidateCounts| == |stats.candidateCounts| + 1
  {
    match GetQueryPoints(fs, params, env)
    case Err(e) => Err(e)
    case Ok((fs', queries)) =>
      BenchmarkPassResults(stats, queries, neighbours);
      BenchmarkPassCounts(stats, queries, neighbours);
      Ok((fs', BenchmarkPass(stats, queries, neighbours)))
  }
}

=== FILE: jsi.dfy ===
/**
 The JSI backend: setup adds every index point to an R-tree as a degenerate
 rectangle with id 1, 2, 3, ... (`Runs.SetupNumbered`); a query asks the
 R-tree for the nearest rectangles within a radius in degrees and keeps the
 id the callback saw last. The R-tree search is an oracle.
 */
module Jsi {
  import opened Base
  import opened FileStore
  import opened Dataset
  import opened Recorder
  import opened Runs

  const ClassName: string := "JsiBenchmark"

  /**
   The `AtomicInteger` after the callbacks: starting from `value`, every id
   the R-tree reports is `set` in turn.
   */
  function SetEach(value: int, reported: seq<int>): int
    decreases |reported|
  {
    if |reported| == 0 then value else SetEach(reported[0], reported[1..])
  }

  /** Setting the ids in turn leaves the last one, or the starting value when there is none. */
  lemma {:induction false} SetEachLast(value: int, reported: seq<int>)
    ensures SetEach(value, reported) == if |reported| == 0 then value else reported[|reported| - 1]
    decreases |reported|
  {
    if |reported| > 0 {
      SetEachLast(reported[0], reported[1..]);
    }
  }

  /** The value the `AtomicInteger` holds after the callbacks: the last id reported, or 0. */
  function LastReported(reported: seq<int>): (id: int)
    ensures id == SetEach(0, reported)
    ensures |reported| == 0 ==> id == 0
    ensures |reported| > 0 ==> id in reported
  {
    SetEachLast(0, reported);
    if |reported| == 0 then 0 else reported[|reported| - 1]
  }

  /**
   One iteration of the query loop. `nearest` gives the ids the R-tree passes
   to the callback, in order, for a point and a radius; since the callback
   always returns true, every one is set in turn. A positive id counts as
   found; the distance is never computed.
   */
  function QueryProbe(latlon: Point, radius: int, nearest: (Point, int) -> seq<int>): (p: Probe)
    ensures p.candidates == 0
    ensures p.found <==> p.entry.id > 0
  {
    var id := SetEach(0, nearest(latlon, radius));
    Probe(Entry(id, NoDistance), 0, id > 0)
  }

  function ProbeEach(queries: seq<Point>, radius: int, nearest: (Point, int) -> seq<int>): (ps: seq<Probe>)
    ensures |ps| == |queries|
  {
    seq(|queries|, i requires 0 <= i < |queries| => QueryProbe(queries[i], radius, nearest))
  }

  /** The loop over all query points; `results` is not cleared beforehand. */
  function QueryPass(stats: Stats, queries: seq<Point>, radius: int, nearest: (Point, int) -> seq<int>): Stats {
    RecordAppended(stats, Fold(ProbeEach(queries, radius, nearest)))
  }

  /** Queries whose last reported id is positive. */
  function PositiveId(radius: int, nearest: (Point, int) -> seq<int>): Point -> bool {
    latlon => LastReported(nearest(latlon, radius)) > 0
  }

  /**
   `query`, its results: the earlier results stay and one `(id, -1.0)` entry
   per query point follows, in query order, with the last id reported or 0.
   */
  lemma QueryPassResults(stats: Stats, queries: seq<Point>, radius: int, nearest: (Point, int) -> seq<int>)
    ensures var s := QueryPass(stats, queries, radius, nearest);
            && |s.results| == |stats.results| + |queries|
            && s.results[..|stats.results|] == stats.results
            && forall i :: 0 <= i < |queries| ==>
                 s.results[|stats.results| + i] == Entry(LastReported(nearest(queries[i], radius)), NoDistance)
  {
    var probes := ProbeEach(queries, radius, nearest);
    RecordAppendedResults(stats, Fold(probes));
  }

  /** `query`, its counters: both count lists gain the number of queries with a positive id. */
  lemma QueryPassCounts(stats: Stats, queries: seq<Point>, radius: int, nearest: (Point, int) -> seq<int>)
    ensures var s := QueryPass(stats, queries, radius, nearest);
            var found := Count(queries, PositiveId(radius, nearest));
            && s.nearestCounts == stats.nearestCounts + [found]
            && s.candidateCounts == stats.candidateCounts + [found]
  {
    var probes := ProbeEach(queries, radius, nearest);
    forall i | 0 <= i < |queries| ensures probes[i].found == PositiveId(radius, nearest)(queries[i]) {
      assert LastReported(nearest(queries[i], radius)) == SetEach(0, nearest(queries[i], radius));
    }
    CountTransfer(probes, Found, queries, PositiveId(radius, nearest));
  }

  /**
   With the R-tree setup built, every reported id is one of 1..N, so a query
   counts as found exactly when the R-tree reported something.
   */
  lemma FoundIffReported(latlon: Point, radius: int, nearest: (Point, int) -> seq<int>, n: nat)
    requires forall j :: 0 <= j < |nearest(latlon, radius)| ==> 1 <= nearest(latlon, radius)[j] <= n
    ensures QueryProbe(latlon, radius, nearest).found <==> |nearest(latlon, radius)| > 0
    ensures QueryProbe(latlon, radius, nearest).entry.id <= n
  {
    SetEachLast(0, nearest(latlon, radius));
  }

  /**
   `query` as it runs: fetch the query points, then the pass with the
   configured radius. It fails only when the fetch does; `results` then keeps
   the earlier entries and grows by one per query point,
   `max(numberOfQueryPoints, 0)` of them, and each count list gains one value.
   */
  function Query(fs: FileSystem, params: Params, env: Env, stats: Stats, nearest: (Point, int) -> seq<int>)
    : (r: Result<(FileSystem, Stats)>)
    ensures r.Ok? <==> GetQueryPoints(fs, params, env).Ok?
    ensures r.Err? ==> r.error == GetQueryPoints(fs, params, env).error
    ensures r.Ok? ==>
              && r.value.0 == GetQueryPoints(fs, params, env).value.0
              && |r.value.1.results|
                 == |stats.results| + (if params.numberOfQueryPoints < 0 then 0 else params.numberOfQueryPoints)
              && r.value.1.results[..|stats.results|] == stats.results
              && |r.value.1.nearestCounts| == |stats.nearestCounts| + 1
              && |r.value.1.candidateCounts| == |stats.candidateCounts| + 1
  {
    match GetQueryPoints(fs, params, env)
    case Err(e) => Err(e)
    case Ok((fs', queries)) =>
      var radius := QueryRadiusDegrees(params.queryRadiusMetres);
      QueryPassResults(stats, queries, radius, nearest);
      QueryPassCounts(stats, queries, radius, nearest);
      Ok((fs', QueryPass(stats, queries, radius, nearest)))
  }
}

=== FILE: lucene.dfy ===
/**
 The Lucene backend: setup reuses an on-disk index that already holds
 exactly the requested number of documents and otherwise indexes the index
 points as documents with stored ids 1, 2, 3, ...; a query records the top
 hit's stored id and sort value. The searcher and the document store are
 oracles.
 */
module Lucene {
  import opened Base
  import opened Text
  import opened FileStore
  import opened Dataset
  import opened Recorder
  import opened Runs

  const ClassName: string := "LuceneBenchmark"

  /**
   Where the index lives: in memory, or on disk behind a memory-mapped or NIO
   directory. The benchmark is built with `Niofs`; the model keeps the type a
   parameter.
   */
  datatype LuceneType = Ram | Mmap | Niofs

  /** The index name for `n` index points, `<indexPrefix>-<n>`. */
  function IndexSuffix(n: int): string {
    IndexPrefix + "-" + IntText(n)
  }

  /**
   `LuceneType.getIndexPath`: no path for an in-memory index, otherwise
   `lucene-<suffix>` under the absolute output directory.
   */
  function GetIndexPath(luceneType: LuceneType, outputDirectory: string, suffix: string): (r: Option<string>)
    ensures r.None? <==> luceneType == Ram
    ensures r.Some? ==> r.value == Join(outputDirectory, "lucene-" + suffix)
  {
    match luceneType
    case Ram => None
    case Mmap => Some(Join(outputDirectory, "lucene-" + suffix))
    case Niofs => Some(Join(outputDirectory, "lucene-" + suffix))
  }

  lemma JoinSuffixInjective(dir: string, prefix: string, a: string, b: string)
    ensures Join(dir, prefix + a) == Join(dir, prefix + b) <==> a == b
  {
    var k := |dir| + 1 + |prefix|;
    if Join(dir, prefix + a) == Join(dir, prefix + b) {
      assert a == Join(dir, prefix + a)[k..];
      assert b == Join(dir, prefix + b)[k..];
    }
  }

  /** On disk, every index size has an index directory of its own. */
  lemma IndexPathsDistinct(luceneType: LuceneType, outputDirectory: string, n1: int, n2: int)
    requires luceneType != Ram
    ensures (GetIndexPath(luceneType, outputDirectory, IndexSuffix(n1))
             == GetIndexPath(luceneType, outputDirectory, IndexSuffix(n2))) <==> n1 == n2
  {
    var head := "lucene-" + IndexPrefix + "-";
    assert "lucene-" + IndexSuffix(n1) == head + IntText(n1);
    assert "lucene-" + IndexSuffix(n2) == head + IntText(n2);
    JoinSuffixInjective(outputDirectory, head, IntText(n1), IntText(n2));
    IntTextInjective(n1, n2);
  }

  // ---------------------------------------------------------------- setup

  /** An indexed document: the stored `id` field, as `doc.get("id")` returns it, and the location. */
  datatype Document = Document(storedId: string, location: Point)

  /** The index setup ends with: one found on disk (only its size is known), or a freshly written one. */
  datatype LuceneIndex = Existing(numDocs: nat) | Created(documents: seq<Document>)

  /** The indexing loop from counter `i`: every point becomes a document whose stored id is `++i`. */
  function IndexDocuments(latlons: seq<Point>, i: int): (docs: seq<Document>)
    ensures |docs| == |latlons|
  {
    if |latlons| == 0 then []
    else [Document(IntText(i + 1), latlons[0])] + IndexDocuments(latlons[1..], i + 1)
  }

  /** The k-th document carries the k-th point and the stored id i + k + 1. */
  lemma {:induction false} IndexDocumentsNumbering(latlons: seq<Point>, i: int)
    ensures forall k :: 0 <= k < |latlons| ==> IndexDocuments(latlons, i)[k] == Document(IntText(i + k + 1), latlons[k])
  {
    if |latlons| > 0 {
      var rest := IndexDocuments(latlons[1..], i + 1);
      IndexDocumentsNumbering(latlons[1..], i + 1);
      forall k | 1 <= k < |latlons|
        ensures IndexDocuments(latlons, i)[k] == Document(IntText(i + k + 1), latlons[k])
      {
        assert IndexDocuments(latlons, i)[k] == rest[k - 1];
        assert latlons[1..][k - 1] == latlons[k];
      }
    }
  }

  /** Setup's documents hold the points in order, the k-th with a stored id that parses to k + 1. */
  lemma DocumentsReadBack(latlons: seq<Point>)
    ensures var documents := IndexDocuments(latlons, 0);
            forall k :: 0 <= k < |latlons| ==>
              documents[k].location == latlons[k] && ParseInt(documents[k].storedId) == Some(k + 1)
  {
    var documents := IndexDocuments(latlons, 0);
    IndexDocumentsNumbering(latlons, 0);
    forall k | 0 <= k < |latlons| ensures ParseInt(documents[k].storedId) == Some(k + 1) {
      IntTextRoundTrip(k + 1);
    }
  }

  /**
   The indexing branch of `setup`: load (or generate) the index points and
   write one document per point, the k-th reading back as its point with id k + 1.
   */
  function CreateIndex(fs: FileSystem, params: Params, env: Env): (r: Result<(FileSystem, LuceneIndex)>)
    ensures r.Ok? <==> GetIndexPoints(fs, params, env).Ok?
    ensures r.Ok? ==>
              var (fs', latlons) := GetIndexPoints(fs, params, env).value;
              && r.value.0 == fs'
              && r.value.1.Created?
              && |r.value.1.documents| == |latlons|
              && forall k :: 0 <= k < |latlons| ==>
                   r.value.1.documents[k].location == latlons[k]
                   && ParseInt(r.value.1.documents[k].storedId) == Some(k + 1)
  {
    match GetIndexPoints(fs, params, env)
    case Err(e) => Err(e)
    case Ok((fs', latlons)) =>
      DocumentsReadBack(latlons);
      Ok((fs', Created(IndexDocuments(latlons, 0))))
  }

  /**
   `setup`. `existingDocs` is what the file system holds at the index path:
   None when nothing exists there, otherwise the document count of the index
   found. The output directory is made sure of first; the index found is kept
   exactly when the type is on disk and it holds a non-zero count equal to
   the requested size, and otherwise a new index is written.
   */
  function Setup(fs: FileSystem, params: Params, env: Env, luceneType: LuceneType,
                 absoluteOutputDirectory: string, existingDocs: Option<nat>)
    : (r: Result<(FileSystem, LuceneIndex)>)
    ensures CreateDirectory(fs, OutputDirectoryName, env.mkdirsSucceeds).Err? ==>
              r == Err(CreateDirectory(fs, OutputDirectoryName, env.mkdirsSucceeds).error)
    ensures CreateDirectory(fs, OutputDirectoryName, env.mkdirsSucceeds).Ok? ==>
              var fs1 := CreateDirectory(fs, OutputDirectoryName, env.mkdirsSucceeds).value;
              var reuse := luceneType != Ram && existingDocs.Some? && existingDocs.value != 0
                           && existingDocs.value == params.numberOfIndexPoints;
              && (reuse ==> r == Ok((fs1, Existing(params.numberOfIndexPoints as nat))))
              && (!reuse ==> r == CreateIndex(fs1, params, env))
  {
    match CreateDirectory(fs, OutputDirectoryName, env.mkdirsSucceeds)
    case Err(e) => Err(e)
    case Ok(fs1) =>
      var indexPath := GetIndexPath(luceneType, absoluteOutputDirectory, IndexSuffix(params.numberOfIndexPoints));
      var createIndex :=
        if indexPath.Some? && existingDocs.Some? then
          var count := existingDocs.value;
          count == 0 || params.numberOfIndexPoints != count
        else true;
      if !createIndex then Ok((fs1, Existing(existingDocs.value)))
      else CreateIndex(fs1, params, env)
  }

  /** The number of documents an index holds. */
  function NumDocs(index: LuceneIndex): nat {
    match index
    case Existing(n) => n
    case Created(documents) => |documents|
  }

  /**
   Whether it was kept or written anew, the index setup ends with holds
   exactly the requested number of documents (none for a negative size).
   */
  lemma SetupHoldsRequestedPoints(fs: FileSystem, params: Params, env: Env, luceneType: LuceneType,
                                  absoluteOutputDirectory: string, existingDocs: Option<nat>)
    requires Setup(fs, params, env, luceneType, absoluteOutputDirectory, existingDocs).Ok?
    ensures NumDocs(Setup(fs, params, env, luceneType, absoluteOutputDirectory, existingDocs).value.1)
            == if params.numberOfIndexPoints < 0 then 0 else params.numberOfIndexPoints
  {
  }

  // ---------------------------------------------------------------- benchmark

  /**
   A top hit: a `FieldDoc` carries the distance it was sorted by, a plain
   `ScoreDoc` only its score. Both values are fixed-point.
   */
  datatype ScoreDoc = FieldDoc(doc: nat, sortValue: int) | ScoreOnly(doc: nat, score: int)

  /** What a search returns: the total hit count and the top documents (at most one is asked for). */
  datatype TopDocs = TopDocs(totalHits: nat, scoreDocs: seq<ScoreDoc>)

  /** The distance recorded for a top hit. */
  function HitDistance(scoreDoc: ScoreDoc): int {
    match scoreDoc
    case FieldDoc(_, v) => v
    case ScoreOnly(_, s) => s
  }

  /**
   One iteration of the benchmark loop. `search` is the query function passed
   in and `storedId` reads a document's `id` field, None standing for the
   `IOException` the loop catches. Every hit counts as a candidate; with hits,
   the top document's distance is taken, and its id unless reading it fails,
   in which case the id stays 0 and the query is not counted as found. A
   stored id that is not an integer throws.
   */
  function BenchmarkProbe(latlon: Point, search: Point -> TopDocs, storedId: nat -> Option<string>)
    : Result<Probe>
  {
    var topDocs := search(latlon);
    if topDocs.totalHits == 0 then Ok(Probe(NoMatch, 0, false))
    else if |topDocs.scoreDocs| == 0 then Err(MissingTopHit)
    else
      var scoreDoc := topDocs.scoreDocs[0];
      var distance := HitDistance(scoreDoc);
      match storedId(scoreDoc.doc)
      case None => Ok(Probe(Entry(0, distance), topDocs.totalHits, false))
      case Some(text) =>
        match ParseInt(text)
        case None => Err(MalformedStoredId(scoreDoc.doc))
        case Some(id) => Ok(Probe(Entry(id, distance), topDocs.totalHits, true))
  }

  /** The loop over all query points, `results` having been cleared first. */
  function BenchmarkPass(stats: Stats, queries: seq<Point>, search: Point -> TopDocs,
                         storedId: nat -> Option<string>): Result<Stats>
  {
    match ProbeAll(queries, latlon => BenchmarkProbe(latlon, search, storedId))
    case Err(e) => Err(e)
    case Ok(probes) => Ok(RecordCleared(stats, Fold(probes)))
  }

  /** The query's top hit could be read: there were hits and the stored id came back. */
  function TopHitRead(search: Point -> TopDocs, storedId: nat -> Option<string>): Point -> bool {
    latlon =>
      var topDocs := search(latlon);
      topDocs.totalHits != 0 && |topDocs.scoreDocs| > 0 && storedId(topDocs.scoreDocs[0].doc).Some?
  }

  function TotalHits(search: Point -> TopDocs): Point -> nat {
    latlon => search(latlon).totalHits
  }

  /** What one query point must be recorded as. */
  ghost predicate RecordsTopHit(e: Entry, latlon: Point, search: Point -> TopDocs, storedId: nat -> Option<string>) {
    var topDocs := search(latlon);
    && (topDocs.totalHits == 0 ==> e == NoMatch)
    && (topDocs.totalHits != 0 ==>
          |topDocs.scoreDocs| > 0
          && e.distance == HitDistance(topDocs.scoreDocs[0])
          && (storedId(topDocs.scoreDocs[0].doc).None? ==> e.id == 0)
          && (storedId(topDocs.scoreDocs[0].doc).Some? ==>
                ParseInt(storedId(topDocs.scoreDocs[0].doc).value) == Some(e.id)))
  }

  /**
   `benchmark`: `results` is replaced by one entry per query point, in query
   order; `nearestCounts` gains the number of queries whose top hit was read
   and `candidateCounts` the total hit count divided by that number (0 when
   it is zero), so hits of queries whose id could not be read still count.
   */
  lemma BenchmarkPassSpec(stats: Stats, queries: seq<Point>, search: Point -> TopDocs,
                          storedId: nat -> Option<string>)
    requires BenchmarkPass(stats, queries, search, storedId).Ok?
    ensures var s := BenchmarkPass(stats, queries, search, storedId).value;
            var found := Count(queries, TopHitRead(search, storedId));
            var total := Sum(queries, TotalHits(search));
            && |s.results| == |queries|
            && (forall i :: 0 <= i < |queries| ==> RecordsTopHit(s.results[i], queries[i], search, storedId))
            && s.nearestCounts == stats.nearestCounts + [found]
            && s.candidateCounts == stats.candidateCounts + [if found == 0 then 0 else total / found]
  {
    var probe := latlon => BenchmarkProbe(latlon, search, storedId);
    var probes := ProbeAll(queries, probe).value;
    forall i | 0 <= i < |queries|
      ensures RecordsTopHit(probes[i].entry, queries[i], search, storedId)
      ensures probes[i].found == TopHitRead(search, storedId)(queries[i])
      ensures probes[i].candidates == TotalHits(search)(queries[i])
    {
      assert probe(queries[i]) == Ok(probes[i]);
    }
    CountTransfer(probes, Found, queries, TopHitRead(search, storedId));
    SumTransfer(probes, Candidates, queries, TotalHits(search));
  }

  /**
   The pass throws exactly when some query has hits but no top document, or
   a top document whose stored id is present but not an integer.
   */
  lemma BenchmarkPassFails(stats: Stats, queries: seq<Point>, search: Point -> TopDocs,
                           storedId: nat -> Option<string>)
    ensures BenchmarkPass(stats, queries, search, storedId).Err? <==>
            exists i :: 0 <= i < |queries| &&
              var topDocs := search(queries[i]);
              topDocs.totalHits != 0 &&
              (|topDocs.scoreDocs| == 0
               || (storedId(topDocs.scoreDocs[0].doc).Some? && ParseInt(storedId(topDocs.scoreDocs[0].doc).value).None?))
  {
  }

  /**
   Against an index setup created, a search whose top document's stored
   fields are those of the j-th document written records id j + 1, the
   number setup gave the j-th index point, and counts as found. This holds
   however Lucene numbers the documents internally (merges may reorder them).
   */
  lemma CreatedIndexIds(documents: seq<Document>, latlons: seq<Point>, latlon: Point,
                        search: Point -> TopDocs, storedId: nat -> Option<string>, j: nat)
    requires documents == IndexDocuments(latlons, 0)
    requires search(latlon).totalHits != 0 && |search(latlon).scoreDocs| > 0
    requires j < |documents|
    requires storedId(search(latlon).scoreDocs[0].doc) == Some(documents[j].storedId)
    ensures BenchmarkProbe(latlon, search, storedId).Ok?
    ensures BenchmarkProbe(latlon, search, storedId).value.entry.id == j + 1
    ensures BenchmarkProbe(latlon, search, storedId).value.found
  {
    IndexDocumentsNumbering(latlons, 0);
    IntTextRoundTrip(j + 1);
  }

  /**
   `benchmark` as it runs: fetch the query points, then the pass. A failing
   fetch aborts it; on success `results` holds one entry per query point,
   `max(numberOfQueryPoints, 0)` of them, and each count list gains one value.
   */
  function Benchmark(fs: FileSystem, params: Params, env: Env, stats: Stats,
                     search: Point -> TopDocs, storedId: nat -> Option<string>)
    : (r: Result<(FileSystem, Stats)>)
    ensures GetQueryPoints(fs, params, env).Err? ==> r == Err(GetQueryPoints(fs, params, env).error)
    ensures r.Ok? ==>
              && r.value.0 == GetQueryPoints(fs, params, env).value.0
              && |r.value.1.results| == (if params.numberOfQueryPoints < 0 then 0 else params.numberOfQueryPoints)
              && |r.value.1.nearestCounts| == |stats.nearestCounts| + 1
              && |r.value.1.candidateCounts| == |stats.candidateCounts| + 1
  {
    match GetQueryPoints(fs, params, env)
    case Err(e) => Err(e)
    case Ok((fs', queries)) =>
      match BenchmarkPass(stats, queries, search, storedId)
      case Err(e) => Err(e)
      case Ok(stats') =>
        BenchmarkPassSpec(stats, queries, search, storedId);
        Ok((fs', stats'))
  }
}

=== FILE: recorder.dfy ===
/**
 Result recording of `AbstractBenchmark.teardown`: the per-query
 `(id, distance)` entries are written one `id<TAB>distance` line each to
 `out/results-<Class>-<N>-<radius>.csv`.
 */
module Recorder {
  import opened Base
  import opened Text
  import opened FileStore
  import opened Dataset

  /** One entry of `results`: the matched id and the distance, in fixed-point metres. */
  datatype Entry = Entry(id: int, distance: int)

  /** The distance `-1.0`, recorded when none was computed. */
  const NoDistance: int := 0 - Scale

  /** The entry `(0, -1.0)` recorded for a query without a match. */
  const NoMatch: Entry := Entry(0, NoDistance)

  function ResultsFileName(className: string, n: int, radius: int): string {
    "results-" + className + "-" + IntText(n) + "-" + IntText(radius) + ".csv"
  }

  /** The line written for one entry: the id, a tab, the distance. */
  function ResultLine(e: Entry): string {
    IntText(e.id) + "\t" + FixedText(e.distance)
  }

  function ResultLines(results: seq<Entry>): seq<string> {
    seq(|results|, i requires 0 <= i < |results| => ResultLine(results[i]))
  }

  /**
   The file-writing half of `teardown`: the results file of this class, index
   size and radius is created or truncated and holds one line per entry of
   `results`, in list order. Nothing else on disk changes. It fails when the
   output directory is missing or the target is a directory.
   */
  function Teardown(fs: FileSystem, className: string, params: Params, results: seq<Entry>)
    : (r: Result<FileSystem>)
    ensures var path := Join(OutputDirectoryName,
                             ResultsFileName(className, params.numberOfIndexPoints, params.queryRadiusMetres));
            && (r.Ok? <==> IsDirectory(fs, OutputDirectoryName) && !IsDirectory(fs, path))
            && (r.Ok? ==> && path in r.value && r.value[path].File?
                          && |r.value[path].lines| == |results|
                          && (forall i :: 0 <= i < |results| ==> r.value[path].lines[i] == ResultLine(results[i]))
                          && UnchangedExcept(fs, r.value, {path}))
  {
    WriteFile(fs, OutputDirectoryName,
              ResultsFileName(className, params.numberOfIndexPoints, params.queryRadiusMetres),
              ResultLines(results))
  }

  /** Reads one results line back: exactly two tab-separated fields, an id and a distance. */
  function ParseResultLine(line: string): Option<Entry> {
    var fields := JavaSplit(line, '\t');
    if |fields| != 2 then None
    else
      match (ParseInt(fields[0]), ParseFixed(fields[1]))
      case (Some(id), Some(d)) => Some(Entry(id, d))
      case _ => None
  }

  function ReadResults(lines: seq<string>): Result<seq<Entry>> {
    ParseLines(lines, ParseResultLine)
  }

  lemma ResultLineRoundTrip(e: Entry)
    ensures ParseResultLine(ResultLine(e)) == Some(e)
  {
    NumericCharsExclude(IntText(e.id), '\t');
    NumericCharsExclude(FixedText(e.distance), '\t');
    JavaSplitPair(IntText(e.id), FixedText(e.distance), '\t');
    IntTextRoundTrip(e.id);
    FixedTextRoundTrip(e.distance);
  }

  /**
   Reading a written results file gives back the recorded entries, in order,
   the `(0, -1.0)` no-match entries included.
   */
  lemma ResultsRoundTrip(results: seq<Entry>)
    ensures ReadResults(ResultLines(results)) == Ok(results)
  {
    var lines := ResultLines(results);
    forall i | 0 <= i < |lines| ensures ParseResultLine(lines[i]) == Some(results[i]) {
      ResultLineRoundTrip(results[i]);
    }
    ParseLinesDetermined(lines, ParseResultLine, results);
  }

  /** For one backend class, distinct (index size, radius) pairs get distinct results files. */
  lemma ResultsFileNamesDistinct(className: string, n1: int, r1: int, n2: int, r2: int)
    ensures ResultsFileName(className, n1, r1) == ResultsFileName(className, n2, r2)
        <==> n1 == n2 && r1 == r2
  {
    if ResultsFileName(className, n1, r1) == ResultsFileName(className, n2, r2) {
      var head := "results-" + className + "-";
      StripSuffix(head + IntText(n1) + "-" + IntText(r1), head + IntText(n2) + "-" + IntText(r2), ".csv");
      StripPrefix3(head, IntText(n1), "-", IntText(r1), IntText(n2), "-", IntText(r2));
      IntTextPrefixFree(n1, n2, '-', IntText(r1), IntText(r2));
      IntTextInjective(r1, r2);
    }
  }

  /** A results file never has the name of a dataset file. */
  lemma ResultsFileIsNotDataset(className: string, n: int, radius: int, prefix: string, m: int)
    requires prefix == IndexPrefix || prefix == QueryPrefix
    ensures ResultsFileName(className, n, radius) != DatasetFileName(prefix, m)
  {
    assert ResultsFileName(className, n, radius)[0] == 'r';
    assert DatasetFileName(prefix, m)[0] == 'b';
  }

  /** Writing the results leaves every dataset file as it was. */
  lemma TeardownKeepsDatasets(fs: FileSystem, className: string, params: Params, results: seq<Entry>,
                              prefix: string, m: int)
    requires prefix == IndexPrefix || prefix == QueryPrefix
    requires Teardown(fs, className, params, results).Ok?
    ensures var fs' := Teardown(fs, className, params, results).value;
            (DatasetPath(prefix, m) in fs <==> DatasetPath(prefix, m) in fs')
            && (DatasetPath(prefix, m) in fs ==> fs'[DatasetPath(prefix, m)] == fs[DatasetPath(prefix, m)])
  {
    var name := ResultsFileName(className, params.numberOfIndexPoints, params.queryRadiusMetres);
    ResultsFileIsNotDataset(className, params.numberOfIndexPoints, params.queryRadiusMetres, prefix, m);
    assert Join(OutputDirectoryName, name)[4..] == name;
    assert DatasetPath(prefix, m)[4..] == DatasetFileName(prefix, m);
  }
}

=== FILE: runs.dfy ===
/**
 What the four backends' setup and query loops have in common: ids handed
 out by `++i` in input order, a left-to-right pass over the query points
 that yields one entry per point plus two counters, and the way a finished
 pass is recorded in `candidateCounts`, `nearestCounts` and `results`.
 */
module Runs {
  import opened Base
  import opened Text
  import opened FileStore
  import opened Dataset
  import opened Recorder

  // ---------------------------------------------------------------- setup numbering

  /** An index item together with the id the setup loop gave it. */
  datatype Numbered<T> = Numbered(id: int, item: T)

  /** The setup loops: a counter starting at `i`, pre-incremented for every item. */
  function Number<T>(items: seq<T>, i: int): (r: seq<Numbered<T>>)
    ensures |r| == |items|
  {
    if |items| == 0 then [] else [Numbered(i + 1, items[0])] + Number(items[1..], i + 1)
  }

  /** The k-th item gets id i + k + 1: consecutive ids in input order. */
  lemma {:induction false} NumberConsecutive<T>(items: seq<T>, i: int)
    ensures forall k :: 0 <= k < |items| ==> Number(items, i)[k] == Numbered(i + k + 1, items[k])
  {
    if |items| > 0 {
      NumberConsecutive(items[1..], i + 1);
    }
  }

  /**
   The setup of the JSI and jeospatial backends: fetch the index points and
   add every one to the index, in input order, the k-th with id k + 1.
   */
  function SetupNumbered(fs: FileSystem, params: Params, env: Env): (r: Result<(FileSystem, seq<Numbered<Point>>)>)
    ensures r.Ok? <==> GetIndexPoints(fs, params, env).Ok?
    ensures r.Ok? ==>
              var (fs', latlons) := GetIndexPoints(fs, params, env).value;
              && r.value.0 == fs'
              && |r.value.1| == |latlons|
              && forall k :: 0 <= k < |latlons| ==> r.value.1[k] == Numbered(k + 1, latlons[k])
  {
    match GetIndexPoints(fs, params, env)
    case Err(e) => Err(e)
    case Ok((fs', latlons)) =>
      NumberConsecutive(latlons, 0);
      Ok((fs', Number(latlons, 0)))
  }

  // ---------------------------------------------------------------- query radius

  /**
   The search radius in fixed-point degrees, taking 1 degree as 100 km
   (`queryRadiusMetres / 100000f`). A whole number of metres is a whole
   number of fixed-point units, so the quotient is exact.
   */
  function QueryRadiusDegrees(queryRadiusMetres: int): (d: int)
    ensures d * 100000 == queryRadiusMetres * Scale
    ensures queryRadiusMetres < 0 <==> d < 0
  {
    var units := queryRadiusMetres * Scale;
    assert units == (queryRadiusMetres * 10) * 100000;
    assert units / 100000 == queryRadiusMetres * 10;
    units / 100000
  }

  // ---------------------------------------------------------------- counting

  /** How many elements satisfy `p`. */
  function Count<T>(xs: seq<T>, p: T -> bool): nat {
    if |xs| == 0 then 0 else (if p(xs[0]) then 1 else 0) + Count(xs[1..], p)
  }

  /** The sum of `f` over the elements. */
  function Sum<T>(xs: seq<T>, f: T -> nat): nat {
    if |xs| == 0 then 0 else f(xs[0]) + Sum(xs[1..], f)
  }

  lemma {:induction false} CountSnoc<T>(xs: seq<T>, x: T, p: T -> bool)
    ensures Count(xs + [x], p) == Count(xs, p) + (if p(x) then 1 else 0)
  {
    if |xs| > 0 {
      assert (xs + [x])[1..] == xs[1..] + [x];
      CountSnoc(xs[1..], x, p);
    }
  }

  lemma {:induction false} SumSnoc<T>(xs: seq<T>, x: T, f: T -> nat)
    ensures Sum(xs + [x], f) == Sum(xs, f) + f(x)
  {
    if |xs| > 0 {
      assert (xs + [x])[1..] == xs[1..] + [x];
      SumSnoc(xs[1..], x, f);
    }
  }

  lemma {:induction false} CountBounded<T>(xs: seq<T>, p: T -> bool)
    ensures Count(xs, p) <= |xs|
  {
    if |xs| > 0 {
      CountBounded(xs[1..], p);
    }
  }

  /** Element-wise equivalent predicates count the same. */
  lemma {:induction false} CountTransfer<T, U>(xs: seq<T>, p: T -> bool, ys: seq<U>, q: U -> bool)
    requires |xs| == |ys|
    requires forall i :: 0 <= i < |xs| ==> p(xs[i]) == q(ys[i])
    ensures Count(xs, p) == Count(ys, q)
  {
    if |xs| > 0 {
      assert p(xs[0]) == q(ys[0]);
      CountTransfer(xs[1..], p, ys[1..], q);
    }
  }

  /** Element-wise equal summands sum the same. */
  lemma {:induction false} SumTransfer<T, U>(xs: seq<T>, f: T -> nat, ys: seq<U>, g: U -> nat)
    requires |xs| == |ys|
    requires forall i :: 0 <= i < |xs| ==> f(xs[i]) == g(ys[i])
    ensures Sum(xs, f) == Sum(ys, g)
  {
    if |xs| > 0 {
      assert f(xs[0]) == g(ys[0]);
      SumTransfer(xs[1..], f, ys[1..], g);
    }
  }

  // ---------------------------------------------------------------- one pass over the queries

  /**
   What one iteration of a query loop contributes: the entry it appends to
   `results`, what it adds to `candidateCount`, and whether it increments
   `nearestCount`.
   */
  datatype Probe = Probe(entry: Entry, candidates: nat, found: bool)

  function Found(p: Probe): bool {
    p.found
  }

  function Candidates(p: Probe): nat {
    p.candidates
  }

  /** The loop's local state: the entries appended so far and the two counters. */
  datatype Tally = Tally(entries: seq<Entry>, candidateCount: nat, nearestCount: nat)

  /** The loop, iteration by iteration: the state after the last probe. */
  function Fold(ps: seq<Probe>): (t: Tally)
    ensures |t.entries| == |ps|
    ensures forall i :: 0 <= i < |ps| ==> t.entries[i] == ps[i].entry
    ensures t.nearestCount == Count(ps, Found) <= |ps|
    ensures t.candidateCount == Sum(ps, Candidates)
  {
    if |ps| == 0 then Tally([], 0, 0)
    else
      var init := ps[..|ps| - 1];
      var p := ps[|ps| - 1];
      var t := Fold(init);
      assert ps == init + [p];
      CountSnoc(init, p, Found);
      SumSnoc(init, p, Candidates);
      CountBounded(ps, Found);
      Tally(t.entries + [p.entry],
            t.candidateCount + p.candidates,
            t.nearestCount + (if p.found then 1 else 0))
  }

  /**
   Runs a probe that may throw over every query point, in order; the first
   exception aborts the pass.
   */
  function ProbeAll(queries: seq<Point>, probe: Point -> Result<Probe>): (r: Result<seq<Probe>>)
    ensures r.Ok? <==> forall i :: 0 <= i < |queries| ==> probe(queries[i]).Ok?
    ensures r.Ok? ==> |r.value| == |queries|
    ensures r.Ok? ==> forall i :: 0 <= i < |queries| ==> probe(queries[i]) == Ok(r.value[i])
    ensures r.Err? ==> exists k :: 0 <= k < |queries| && probe(queries[k]) == Err(r.error)
                                   && forall j :: 0 <= j < k ==> probe(queries[j]).Ok?
  {
    if |queries| == 0 then Ok([])
    else
      match probe(queries[0])
      case Err(e) => Err(e)
      case Ok(p) =>
        match ProbeAll(queries[1..], probe)
        case Err(e) =>
          assert forall j :: 1 <= j < |queries| ==> queries[j] == queries[1..][j - 1];
          Err(e)
        case Ok(ps) =>
          assert forall j :: 1 <= j < |queries| ==> queries[j] == queries[1..][j - 1];
          Ok([p] + ps)
  }

  // ---------------------------------------------------------------- recording a pass

  /** The benchmark object's accumulators. */
  datatype Stats = Stats(candidateCounts: seq<int>, nearestCounts: seq<int>, results: seq<Entry>)

  /**
   `nearestCount == 0 ? 0 : candidateCount / nearestCount`: the whole number of
   candidates per found query, rounded down, with zero when nothing was found.
   */
  function AverageCandidates(t: Tally): (a: nat)
    ensures t.nearestCount == 0 ==> a == 0
    ensures t.nearestCount > 0 ==> a * t.nearestCount <= t.candidateCount < (a + 1) * t.nearestCount
  {
    if t.nearestCount == 0 then 0 else t.candidateCount / t.nearestCount
  }

  /**
   How the GeoTools and Lucene loops record a pass: `results` was cleared
   before the pass, so it holds exactly this pass's entries; the average
   candidate count and the found count are appended.
   */
  function RecordCleared(s: Stats, t: Tally): Stats
  {
    Stats(s.candidateCounts + [AverageCandidates(t)], s.nearestCounts + [t.nearestCount], t.entries)
  }

  /**
   How the JSI and jeospatial loops record a pass: `results` is never
   cleared, so the pass's entries are appended to the earlier ones; both
   count lists receive the found count.
   */
  function RecordAppended(s: Stats, t: Tally): Stats
  {
    Stats(s.candidateCounts + [t.nearestCount], s.nearestCounts + [t.nearestCount], s.results + t.entries)
  }

  /** An appending record keeps the earlier results as a prefix and puts the pass's entries after them. */
  lemma RecordAppendedResults(s: Stats, t: Tally)
    ensures var s' := RecordAppended(s, t);
            && |s'.results| == |s.results| + |t.entries|
            && s'.results[..|s.results|] == s.results
            && forall i :: 0 <= i < |t.entries| ==> s'.results[|s.results| + i] == t.entries[i]
  {
    assert RecordAppended(s, t).results[..|s.results|] == s.results;
  }
}

=== FILE: suite.dfy ===
/**
 The four benchmark classes side by side: each writes its results under a
 file name carrying its own class name.
 */
module Suite {
  import opened Recorder
  import Geotools
  import Lucene
  import Jsi
  import Jeo

  /**
   The benchmark classes' names in the Java code. Under JMH the benchmark object
   is a generated subclass, so `getClass().getSimpleName()` gives each name
   with a common suffix (`_jmhType`); the lemma below holds for any suffix.
   */
  const ClassNames: seq<string> := [Geotools.ClassName, Lucene.ClassName, Jsi.ClassName, Jeo.ClassName]

  /** No two benchmark classes write the same results file, whatever their parameters. */
  lemma ResultsFilesPerClass(i: nat, j: nat, suffix: string, n1: int, r1: int, n2: int, r2: int)
    requires i < |ClassNames| && j < |ClassNames| && i != j
    ensures ResultsFileName(ClassNames[i] + suffix, n1, r1) != ResultsFileName(ClassNames[j] + suffix, n2, r2)
  {
    var f1, f2 := ResultsFileName(ClassNames[i] + suffix, n1, r1), ResultsFileName(ClassNames[j] + suffix, n2, r2);
    assert f1[8] == ClassNames[i][0] && f2[8] == ClassNames[j][0];
    assert f1[9] == ClassNames[i][1] && f2[9] == ClassNames[j][1];
  }
}

=== FILE: text.dfy ===
/**
 The textual forms the harness writes and reads: decimal integers (as
 `String.valueOf(int)` writes them), fixed-point decimals (standing for
 `Double.toString` / `Double.parseDouble`), and `String.split` on a single
 separator character.

 A Java `double` is modelled as an integer count of 1/Scale units, written
 with exactly FracDigits digits after the decimal point.
 */
module Text {
  import opened Base

  /** Number of digits after the decimal point of a fixed-point value. */
  const FracDigits: nat := 6

  function Pow10(k: nat): (r: nat)
    ensures r >= 1
  {
    if k == 0 then 1 else 10 * Pow10(k - 1)
  }

  /** Units per whole number in the fixed-point representation. */
  const Scale: nat := Pow10(FracDigits)

  // ---------------------------------------------------------------- digits

  predicate IsDigit(c: char) {
    '0' <= c <= '9'
  }

  predicate AllDigits(s: string) {
    forall i :: 0 <= i < |s| ==> IsDigit(s[i])
  }

  /** The characters a number's text is made of. */
  predicate NumericChars(s: string) {
    forall i :: 0 <= i < |s| ==> IsDigit(s[i]) || s[i] == '-' || s[i] == '.'
  }

  function DigitValue(c: char): (d: nat)
    requires IsDigit(c)
    ensures d < 10
  {
    c as int - '0' as int
  }

  function DigitChar(d: nat): (c: char)
    requires d < 10
    ensures IsDigit(c) && DigitValue(c) == d
  {
    ('0' as int + d) as char
  }

  /** The number a digit string denotes, most significant digit first. */
  function DigitsValue(s: string): nat
    requires AllDigits(s)
  {
    if |s| == 0 then 0 else 10 * DigitsValue(s[..|s| - 1]) + DigitValue(s[|s| - 1])
  }

  /** Decimal text of a natural number, without leading zeros. */
  function NatText(n: nat): (s: string)
    ensures |s| > 0 && AllDigits(s)
  {
    if n < 10 then [DigitChar(n)] else NatText(n / 10) + [DigitChar(n % 10)]
  }

  /** The last `width` decimal digits of `n`, zero-padded on the left. */
  function PaddedText(n: nat, width: nat): (s: string)
    ensures |s| == width && AllDigits(s)
  {
    if width == 0 then "" else PaddedText(n / 10, width - 1) + [DigitChar(n % 10)]
  }

  lemma {:induction false} NatTextValue(n: nat)
    ensures DigitsValue(NatText(n)) == n
  {
    if n >= 10 {
      var s := NatText(n);
      assert s[..|s| - 1] == NatText(n / 10);
      NatTextValue(n / 10);
    }
  }

  lemma {:induction false} PaddedTextValue(n: nat, width: nat)
    requires n < Pow10(width)
    ensures DigitsValue(PaddedText(n, width)) == n
  {
    if width > 0 {
      var s := PaddedText(n, width);
      assert s[..|s| - 1] == PaddedText(n / 10, width - 1);
      assert n / 10 < Pow10(width - 1);
      PaddedTextValue(n / 10, width - 1);
    }
  }

  // ---------------------------------------------------------------- integers

  /** `String.valueOf(int)`: an optional minus sign and the digits of the magnitude. */
  function IntText(i: int): (s: string)
    ensures |s| > 0 && NumericChars(s)
    ensures '.' !in s
    ensures forall k :: 1 <= k < |s| ==> IsDigit(s[k])
  {
    if i < 0 then "-" + NatText(-i) else NatText(i)
  }

  function ParseNat(s: string): Option<nat> {
    if |s| > 0 && AllDigits(s) then Some(DigitsValue(s)) else None
  }

  /** Reads back what IntText writes (leading zeros are accepted). */
  function ParseInt(s: string): Option<int> {
    if |s| > 0 && s[0] == '-' then
      match ParseNat(s[1..])
      case Some(n) => Some(0 - n)
      case None => None
    else
      match ParseNat(s)
      case Some(n) => Some(n)
      case None => None
  }

  lemma IntTextRoundTrip(i: int)
    ensures ParseInt(IntText(i)) == Some(i)
  {
    if i < 0 {
      assert IntText(i)[1..] == NatText(-i);
      NatTextValue(-i);
    } else {
      NatTextValue(i);
    }
  }

  lemma IntTextInjective(a: int, b: int)
    ensures IntText(a) == IntText(b) <==> a == b
  {
    IntTextRoundTrip(a);
    IntTextRoundTrip(b);
  }

  /** The first position at or after `k` that does not hold a digit (or |s|). */
  function FirstNonDigit(s: string, k: nat): nat
    requires k <= |s|
    decreases |s| - k
  {
    if k == |s| || !IsDigit(s[k]) then k else FirstNonDigit(s, k + 1)
  }

  lemma {:induction false} FirstNonDigitAfterIntText(i: int, sep: char, rest: string, k: nat)
    requires !IsDigit(sep)
    requires 1 <= k <= |IntText(i)|
    ensures FirstNonDigit(IntText(i) + [sep] + rest, k) == |IntText(i)|
    decreases |IntText(i)| - k
  {
    var s := IntText(i) + [sep] + rest;
    if k < |IntText(i)| {
      assert s[k] == IntText(i)[k];
      FirstNonDigitAfterIntText(i, sep, rest, k + 1);
    } else {
      assert s[k] == sep;
    }
  }

  /**
   The text of an integer followed by a separator that cannot occur inside it
   after the first position determines both the integer and the rest: so
   `IntText(a) + "-" + x` can be split back unambiguously even when `x` starts
   with a minus sign of its own.
   */
  lemma IntTextPrefixFree(a: int, b: int, sep: char, x: string, y: string)
    requires !IsDigit(sep)
    requires IntText(a) + [sep] + x == IntText(b) + [sep] + y
    ensures a == b && x == y
  {
    var ta, tb := IntText(a), IntText(b);
    var s := ta + [sep] + x;
    FirstNonDigitAfterIntText(a, sep, x, 1);
    FirstNonDigitAfterIntText(b, sep, y, 1);
    assert ta == s[..|ta|];
    assert tb == (tb + [sep] + y)[..|tb|];
    IntTextInjective(a, b);
    assert x == s[|ta| + 1..];
    assert y == (tb + [sep] + y)[|tb| + 1..];
  }

  /** Equal strings with a common head have equal tails. */
  lemma StripPrefix(head: string, a: string, b: string)
    requires head + a == head + b
    ensures a == b
  {
    assert a == (head + a)[|head|..];
    assert b == (head + b)[|head|..];
  }

  /** The same for a head followed by three parts. */
  lemma StripPrefix3(head: string, a: string, b: string, c: string, x: string, y: string, z: string)
    requires head + a + b + c == head + x + y + z
    ensures a + b + c == x + y + z
  {
    assert head + a + b + c == head + (a + b + c);
    assert head + x + y + z == head + (x + y + z);
    StripPrefix(head, a + b + c, x + y + z);
  }

  /** Equal strings with a common tail have equal heads. */
  lemma StripSuffix(a: string, b: string, tail: string)
    requires a + tail == b + tail
    ensures a == b
  {
    assert a == (a + tail)[..|a|];
    assert b == (b + tail)[..|b|];
  }

  // ---------------------------------------------------------------- fixed point

  /**
   The text of a fixed-point value: sign, whole part, a point, and exactly
   FracDigits fractional digits. This stands for `Double.toString`.
   */
  function FixedText(x: int): (s: string)
    ensures |s| > 0 && NumericChars(s)
  {
    var m: nat := if x < 0 then -x else x;
    var t := NatText(m / Scale) + "." + PaddedText(m % Scale, FracDigits);
    assert NumericChars(t) by {
      forall k | 0 <= k < |t| ensures IsDigit(t[k]) || t[k] == '.' {
        if k < |NatText(m / Scale)| {
          assert t[k] == NatText(m / Scale)[k];
        } else if k > |NatText(m / Scale)| {
          assert t[k] == PaddedText(m % Scale, FracDigits)[k - |NatText(m / Scale)| - 1];
        }
      }
    }
    if x < 0 then "-" + t else t
  }

  /** Reads a fixed-point value in exactly the form FixedText writes. */
  function ParseFixed(s: string): Option<int> {
    var negative := |s| > 0 && s[0] == '-';
    var body := if negative then s[1..] else s;
    var parts := Fields(body, '.');
    if |parts| == 2 && |parts[1]| == FracDigits && AllDigits(parts[1]) then
      match ParseNat(parts[0])
      case None => None
      case Some(w) =>
        var m := w * Scale + DigitsValue(parts[1]);
        Some(if negative then -m else m)
    else
      None
  }

  /** The unsigned body of FixedText splits at its point into the whole and fractional digits. */
  lemma FixedBodyParts(m: nat)
    ensures var whole, frac := NatText(m / Scale), PaddedText(m % Scale, FracDigits);
            && Fields(whole + "." + frac, '.') == [whole, frac]
            && ParseNat(whole) == Some(m / Scale)
            && |frac| == FracDigits && AllDigits(frac)
            && (m / Scale) * Scale + DigitsValue(frac) == m
  {
    var whole, frac := NatText(m / Scale), PaddedText(m % Scale, FracDigits);
    assert '.' !in whole by {
      forall k | 0 <= k < |whole| ensures whole[k] != '.' {
        assert IsDigit(whole[k]);
      }
    }
    assert '.' !in frac by {
      forall k | 0 <= k < |frac| ensures frac[k] != '.' {
        assert IsDigit(frac[k]);
      }
    }
    FieldsAt(whole, frac, '.');
    FieldsWithout(frac, '.');
    NatTextValue(m / Scale);
    PaddedTextValue(m % Scale, FracDigits);
  }

  lemma FixedTextRoundTrip(x: int)
    ensures ParseFixed(FixedText(x)) == Some(x)
  {
    var m: nat := if x < 0 then -x else x;
    var whole, frac := NatText(m / Scale), PaddedText(m % Scale, FracDigits);
    var t := whole + "." + frac;
    FixedBodyParts(m);
    if x < 0 {
      assert FixedText(x) == "-" + t;
      assert ("-" + t)[1..] == t;
    } else {
      assert FixedText(x) == t;
      assert t[0] == whole[0];
      assert IsDigit(t[0]);
    }
  }

  // ---------------------------------------------------------------- splitting

  /** All fields of `s` between occurrences of `sep`, empty ones included. */
  function Fields(s: string, sep: char): (r: seq<string>)
    ensures |r| >= 1
  {
    if |s| == 0 then [""]
    else
      var rest := Fields(s[1..], sep);
      if s[0] == sep then [""] + rest else [[s[0]] + rest[0]] + rest[1..]
  }

  lemma {:induction false} FieldsWithout(s: string, sep: char)
    requires sep !in s
    ensures Fields(s, sep) == [s]
  {
    if |s| > 0 {
      FieldsWithout(s[1..], sep);
      assert [s[0]] + s[1..] == s;
    }
  }

  lemma {:induction false} FieldsAt(a: string, b: string, sep: char)
    requires sep !in a
    ensures Fields(a + [sep] + b, sep) == [a] + Fields(b, sep)
  {
    var s := a + [sep] + b;
    if |a| == 0 {
      assert s[1..] == b;
    } else {
      assert s[1..] == a[1..] + [sep] + b;
      FieldsAt(a[1..], b, sep);
      assert [a[0]] + a[1..] == a;
    }
  }

  function DropTrailingEmpty(f: seq<string>): seq<string> {
    if |f| > 0 && f[|f| - 1] == "" then DropTrailingEmpty(f[..|f| - 1]) else f
  }

  /**
   `String.split` on a one-character separator: the fields of `s`, with
   trailing empty fields removed unless the separator does not occur at all.
   */
  function JavaSplit(s: string, sep: char): seq<string> {
    var f := Fields(s, sep);
    if |f| == 1 then f else DropTrailingEmpty(f)
  }

  /** Splitting two separator-free fields joined by the separator gives them back. */
  lemma JavaSplitPair(a: string, b: string, sep: char)
    requires sep !in a && sep !in b && b != ""
    ensures JavaSplit(a + [sep] + b, sep) == [a, b]
  {
    FieldsAt(a, b, sep);
    FieldsWithout(b, sep);
  }

  lemma NumericCharsExclude(s: string, c: char)
    requires NumericChars(s)
    requires !IsDigit(c) && c != '-' && c != '.'
    ensures c !in s
  {
  }

  // ---------------------------------------------------------------- files of lines

  /**
   Reads a file line by line with `parse`, in order; the first line that does
   not parse aborts the whole read with its (zero-based) index.
   */
  function ParseLines<T>(lines: seq<string>, parse: string -> Option<T>): (r: Result<seq<T>>)
    ensures r.Ok? <==> forall i :: 0 <= i < |lines| ==> parse(lines[i]).Some?
    ensures r.Ok? ==> |r.value| == |lines|
    ensures r.Ok? ==> forall i :: 0 <= i < |lines| ==> parse(lines[i]) == Some(r.value[i])
    ensures r.Err? ==> exists k :: 0 <= k < |lines| && r.error == MalformedLine(k) && parse(lines[k]).None?
                                   && forall j :: 0 <= j < k ==> parse(lines[j]).Some?
  {
    if |lines| == 0 then Ok([])
    else
      var last := |lines| - 1;
      match ParseLines(lines[..last], parse)
      case Err(e) => Err(e)
      case Ok(xs) =>
        match parse(lines[last])
        case None => Err(MalformedLine(last))
        case Some(x) => Ok(xs + [x])
  }

  /** Lines that parse one by one to `xs` are read as exactly `xs`. */
  lemma ParseLinesDetermined<T>(lines: seq<string>, parse: string -> Option<T>, xs: seq<T>)
    requires |lines| == |xs|
    requires forall i :: 0 <= i < |lines| ==> parse(lines[i]) == Some(xs[i])
    ensures ParseLines(lines, parse) == Ok(xs)
  {
    var r := ParseLines(lines, parse);
    assert r.Ok?;
    forall i | 0 <= i < |xs| ensures r.value[i] == xs[i] {
      assert parse(lines[i]) == Some(r.value[i]);
    }
    assert r.value == xs;
  }
}
